=== FILE: README.md ===
# GeoPayment provider layer, modelled in Dafny

This project models the provider protocol layer of the GeoPayment library.
GeoPayment is a PHP adapter for Georgian payment gateways. The layer builds
the URL that sends a customer to a bank's payment page. It checks the bank's
signed callbacks and renders the XML replies to them. The gateways are:

- the Bank of Georgia card gateway (Bog);
- the Cartu bank's 3-D Secure proxy (Cartu);
- the TBC Pay terminal network (Tbcpay).

Modules:

- `PhpValues` holds the PHP semantics the layer relies on:
  - a value that may be null;
  - `empty`;
  - ordered arrays with `$a[$k] = $v`;
  - `intval` on decimal text.
- `OptionStore` is the `Options` class. A lookup tries the stored entry,
  then the process environment, then the caller's default.
- `RawUrl` is `rawurlencode` and `rawurldecode`. It follows the
  percent-encoding of section 2.1 of RFC 3986 over UTF-8, with the
  unreserved set of section 2.3.
- `XmlResponse` holds what every XML reply shares:
  - `htmlspecialchars` followed by `mb_substr` truncation (`clean`);
  - comment stripping (`prepare`);
  - heredoc templates;
  - the response object with its mode and content.
- `PaymentUrl` assembles query strings. It also has an independent reader
  (`Read`) that parses such a URL back into names and values.
- `AbstractProvider` is the shared provider state: custom parameters, mode,
  options and request. It also holds the amount conversions and the
  required-field check.
- `Signature` derives the signed string of a callback. The URL is cut at its
  first `&signature=` and percent-decoded once. The public-key check is an
  oracle that returns an integer, and only 1 is accepted.
- `BogXml`, `CartuXml` and `TbcpayXml` hold each bank's reply bodies and
  their `success`/`error` methods.
- `BogProvider`, `CartuProvider` and `TbcpayProvider` hold each bank's
  payment URL, signature check and reply logic.

PHP inheritance becomes composition. The base `Provider` and `Response`
classes carry the state. Each bank's module has methods that take the object
and update it.

A provider call ends in one of three ways, modelled by `Exit`:

- `Continue`: it returns normally.
- `Sent(body)`: the script sends a body and exits. The body is none when no
  template applied.
- `Failed(message)`: an exception is thrown.

Some behaviours of the code are easy to miss:

- `clean` escapes first and then truncates the escaped text, so a limit can
  cut an entity part-way (`XmlResponse.CleanCutsEntity`).
- `amtToMinor` turns a comma into a decimal point, not a thousands
  separator (`AbstractProvider.AmtToMinor`).
- Any falsy signature is rejected as missing: an absent one, an empty
  string or `"0"` (`Signature.Check`).
- The URL is cut at the first `&signature=` whose rest is a single line, not
  at a trailing component (`Signature.CutAtLeftmostMatch`).

## Model

| member | source | states |
|---|---|---|
| `PhpValues.Put` | src/Provider/AbstractProvider.php:97-101 | `$a[$k] = $v`: afterwards `k` maps to `v` and every other key keeps its value. An existing key keeps its position; a new key is appended. Distinct keys stay distinct. |
| `PhpValues.IntVal` | src/Provider/Card/Bog/XMLResponse.php:43 | `intval` of a digit string is its decimal value; with a leading `-` it is the negated value. |
| `PhpValues.IntValReads` | src/Provider/Card/Bog/XMLResponse.php:43 | `intval` skips leading white space, reads an optional `+` or `-`, then the digits up to the first non-digit: `" 7"` gives 7 and `"12.50"` gives 12. |
| `PhpValues.IntValShow` | src/Provider/Card/Bog/XMLResponse.php:43 | `intval` reads the decimal text of any integer back as that integer. |
| `PhpValues.ShowInjective` | src/Provider/Card/Bog/XMLResponse.php:43 | Distinct integers have distinct decimal texts. |
| `OptionStore.Options.constructor` | src/Options.php:34-37 | The store starts with exactly the given entries. |
| `OptionStore.Options.Set` | src/Options.php:68-72 | `set` overwrites one entry and no other. A non-null value is afterwards returned by `get` for every environment and default. |
| `OptionStore.Options.Get` | src/Options.php:47-58 | A stored non-null entry is returned and shadows everything else. Without one, the environment entry is returned; without that, the caller's default. |
| `OptionStore.NullEntryIsAbsent` | src/Options.php:49 | A key stored as null gives the same `get` result as a store from which the key was removed. |
| `RawUrl.Encode` | src/Provider/AbstractProvider.php:307-310 | Every character of `rawurlencode` output is unreserved or `%`. |
| `RawUrl.EncodeKeepsUnreserved` | src/Provider/AbstractProvider.php:307-310 | Text made only of unreserved ASCII characters is encoded as itself. |
| `RawUrl.EncodeWellEncoded` | src/Provider/AbstractProvider.php:307-310 | The output consists only of unreserved characters and `%XX` triples with upper-case hex. |
| `RawUrl.DecodeEncode` | src/Provider/AbstractProvider.php:307-310 | Percent-decoding the output gives back the UTF-8 bytes of the input. |
| `RawUrl.Decode` | src/Provider/Card/Bog/Provider.php:50 | `rawurldecode` of text without `%` is the UTF-8 bytes of the text itself. |
| `RawUrl.Utf8Injective` | src/Provider/AbstractProvider.php:307-310 | Equal UTF-8 bytes mean equal strings. |
| `RawUrl.EncodeInjective` | src/Provider/AbstractProvider.php:307-310 | Equal encodings mean equal strings: decoding gives back the bytes and the bytes fix the string. |
| `XmlResponse.Escape` | src/Provider/AbstractXMLResponse.php:107 | `htmlspecialchars` output has no `<`, `>` or `"` and is never shorter than its input. |
| `XmlResponse.UnescapeChar` | src/Provider/AbstractXMLResponse.php:107 | Decoding undoes the escaping of one character in front of any text. |
| `XmlResponse.UnescapeEscape` | src/Provider/AbstractXMLResponse.php:107 | Decoding the four entities undoes the escaping exactly. |
| `XmlResponse.Clean` | src/Provider/AbstractXMLResponse.php:105-113 | `clean` is a prefix of the escaped input and is inert. With a limit it has exactly min(escaped length, limit) code points; with limit 0 (null) it is the escaped input, unshortened. |
| `XmlResponse.CleanCutsEntity` | src/Provider/AbstractXMLResponse.php:107-109 | Truncation acts on the escaped text: `&` limited to 3 becomes `&am`. |
| `XmlResponse.CleanKeepsPlainText` | src/Provider/AbstractXMLResponse.php:105-113 | Text with no special character that fits the limit passes unchanged. |
| `XmlResponse.Prepare` | src/Provider/AbstractXMLResponse.php:94-98 | Comment stripping never lengthens the text. |
| `XmlResponse.PrepareKeepsOrder` | src/Provider/AbstractXMLResponse.php:96 | What `prepare` keeps is a subsequence of the input, in order. |
| `XmlResponse.PrepareWithoutComments` | src/Provider/AbstractXMLResponse.php:96 | Text that never opens a comment is unchanged. |
| `XmlResponse.PrepareKeepsPlainPrefix` | src/Provider/AbstractXMLResponse.php:96 | Text before the first `<!--` is kept as it is and the rest is processed alike, so a comment after kept text is removed too. |
| `XmlResponse.UnclosedOpenerKept` | src/Provider/AbstractXMLResponse.php:96 | A `<!--` with no `-->` before the next line break starts no comment: its `<` is kept and the scan goes on from the next character. |
| `XmlResponse.LeadingCommentRemoved` | src/Provider/AbstractXMLResponse.php:96 | A leading single-line comment is removed up to its first `-->`, and the rest is processed alike. |
| `XmlResponse.FillDeterminesValues` | src/Provider/Card/Bog/XMLResponse.php:46-73 | A heredoc template filled with inert values determines the values: equal renderings mean equal fields. |
| `XmlResponse.Response.constructor` | src/Provider/AbstractXMLResponse.php:49-53 | The response stores its mode and has no content yet. |
| `PaymentUrl.Custom` | src/Provider/Card/Bog/Provider.php:81-83 | Custom parameters keep insertion order, with the bank's name prefix on each key. |
| `PaymentUrl.AppendCustom` | src/Provider/Pay/Cartu/Provider.php:126-128 | The `foreach` appends `&<prefix><key>=<encoded value>` per custom parameter, in order. |
| `PaymentUrl.ReadBuild` | src/Provider/Card/Bog/Provider.php:69-86 | Reading a built URL back yields every parameter name in order, with its value's bytes intact. |
| `AbstractProvider.Underscored` | src/Provider/AbstractProvider.php:116 | The request name has the same length; every `.` becomes `_` and every other character is kept. |
| `AbstractProvider.Provider.constructor` | src/Provider/AbstractProvider.php:72-77 | A provider holds its options and request, with no custom parameters. |
| `AbstractProvider.Provider.AddParam` | src/Provider/AbstractProvider.php:97-101 | `addParam` keeps an existing key's position and appends a new key. Afterwards `getParam` returns the non-null value; the mode is unchanged. |
| `AbstractProvider.Provider.GetParam` | src/Provider/AbstractProvider.php:111-118 | A set custom parameter is returned as is. Only otherwise is the request consulted, under the underscored name. |
| `AbstractProvider.Provider.SetMode` | src/Provider/AbstractProvider.php:145-159 | `getMode` returns the mode last set; parameters are untouched. |
| `AbstractProvider.AmtToMinor` | src/Provider/AbstractProvider.php:243-252 | For an integer amount n the result is 100·n. Zero short-cuts, and the trim and separator rewriting leave an integer's text unchanged. |
| `AbstractProvider.AmtToMajor` | src/Provider/AbstractProvider.php:262-269 | For an integer minor amount m the formatted result is m/100 exactly. |
| `AbstractProvider.MajorOfMinor` | src/Provider/AbstractProvider.php:243-269 | Converting n to minor units and back gives n. |
| `AbstractProvider.MinorOfMajor` | src/Provider/AbstractProvider.php:243-269 | Converting 100·k to major units and back gives 100·k. |
| `AbstractProvider.FirstEmpty` | src/Provider/Card/Bog/Provider.php:96-109 | Names the first field, in the given order, whose value is PHP-empty, or none when all are filled. |
| `Signature.CutSignature` | src/Provider/Card/Bog/Provider.php:49 | The cut never lengthens the URL; the lemmas below state where it cuts. |
| `Signature.CutAtLeftmostMatch` | src/Provider/Card/Bog/Provider.php:49 | The URL is cut at the leftmost `&signature=` whose rest is a single line; only a final newline survives. |
| `Signature.CutWithoutMatch` | src/Provider/Card/Bog/Provider.php:49 | Without a match the URL is unchanged. |
| `Signature.SignedPrefix` | src/Provider/Card/Bog/Provider.php:47-50 | The signed bytes are the percent-decoding of everything before the first marker. |
| `Signature.SignedIgnoresTail` | src/Provider/Pay/Cartu/Provider.php:90-93 | The signed bytes do not depend on anything after the first marker. |
| `Signature.Check` | src/Provider/Card/Bog/Provider.php:42-62 | A falsy signature is rejected as missing. A verifier result other than exactly 1 is rejected as invalid. Only 1 is accepted. |
| `BogXml.TrxId` | src/Provider/Card/Bog/XMLResponse.php:39 | The transaction id is the escaped field cut to exactly min(escaped length, 50) code points. |
| `BogXml.ShortDesc` | src/Provider/Card/Bog/XMLResponse.php:40 | The short description is the escaped field cut to exactly min(escaped length, 30) code points. |
| `BogXml.LongDesc` | src/Provider/Card/Bog/XMLResponse.php:41 | The long description is the escaped field cut to exactly min(escaped length, 125) code points. |
| `BogXml.AccountId` | src/Provider/Card/Bog/XMLResponse.php:42 | The account id is the escaped field cut to exactly min(escaped length, 32) code points. |
| `BogXml.Amount` | src/Provider/Card/Bog/XMLResponse.php:43 | The amount is the decimal text of `intval` of the input, so it reads back as that integer and is inert. |
| `BogXml.Currency` | src/Provider/Card/Bog/XMLResponse.php:44 | The currency is escaped and never shortened. |
| `BogXml.CheckSuccessValues` | src/Provider/Card/Bog/XMLResponse.php:39-73 | The six inert values in template order: trx_id under merchant-trx, short_desc under shortDesc, long_desc under longDesc, account_id under id, then amount and currency. |
| `BogXml.CheckSuccessBody` | src/Provider/Card/Bog/XMLResponse.php:37-76 | The check success body opens a `payment-avail-response` with result code 1. |
| `BogXml.CheckSuccessBodyDetermines` | src/Provider/Card/Bog/XMLResponse.php:46-73 | Two check success bodies are equal exactly when all six fields agree. |
| `BogXml.CheckErrorBody` | src/Provider/Card/Bog/XMLResponse.php:78-91 | The check error body opens a `payment-avail-response` with result code 2. |
| `BogXml.CheckErrorBodyDetermines` | src/Provider/Card/Bog/XMLResponse.php:78-91 | The check error body determines its description, cleaned to 125. |
| `BogXml.CheckErrorIsNotSuccess` | src/Provider/Card/Bog/XMLResponse.php:46-89 | The check error body has code 2 and the success body code 1, so they never coincide. |
| `BogXml.RegErrorBody` | src/Provider/Card/Bog/XMLResponse.php:107-120 | The reg error body opens a `register-payment-response` with result code 2. |
| `BogXml.RegErrorBodyDetermines` | src/Provider/Card/Bog/XMLResponse.php:107-120 | The reg error body determines its description, cleaned to 125. |
| `BogXml.RegErrorIsNotSuccess` | src/Provider/Card/Bog/XMLResponse.php:93-118 | The reg error body has code 2 and the constant success body code 1. |
| `BogXml.Success` | src/Provider/Card/Bog/XMLResponse.php:27-35 | Check mode renders the check success body and reg mode the constant reg body. Any other mode leaves the content as it was. |
| `BogXml.Error` | src/Provider/Card/Bog/XMLResponse.php:17-25 | Check and reg modes render their error bodies, which ignore the code argument. Any other mode leaves the content. |
| `CartuXml.TransactionId` | src/Provider/Card/Cartu/XMLResponse.php:31 | The transaction id is the escaped field cut to exactly min(escaped length, 32) code points. |
| `CartuXml.PaymentId` | src/Provider/Card/Cartu/XMLResponse.php:32 | The payment id is the escaped field cut to exactly min(escaped length, 12) code points. |
| `CartuXml.SuccessBody` | src/Provider/Card/Cartu/XMLResponse.php:29-42 | The success body starts with the cleaned transaction id and ends with status ACCEPTED. |
| `CartuXml.ErrorBody` | src/Provider/Card/Cartu/XMLResponse.php:44-58 | The error body starts with the cleaned transaction id and ends with status DECLINED. |
| `CartuXml.BodyDetermines` | src/Provider/Card/Cartu/XMLResponse.php:29-58 | A confirmation body determines its status word and both cleaned ids. |
| `CartuXml.SuccessIsNotError` | src/Provider/Card/Cartu/XMLResponse.php:29-58 | An ACCEPTED body never equals a DECLINED body. |
| `CartuXml.SuccessBodyDetermines` | src/Provider/Card/Cartu/XMLResponse.php:29-42 | Two success bodies are equal exactly when both cleaned ids agree. |
| `CartuXml.Success` | src/Provider/Card/Cartu/XMLResponse.php:23-27 | `success` renders the ACCEPTED body whatever the mode. |
| `TbcpayXml.ExtraLine` | src/Provider/Pay/Tbcpay/XMLResponse.php:33 | Each extra line starts a tag. |
| `TbcpayXml.BuildExtras` | src/Provider/Pay/Tbcpay/XMLResponse.php:31-34 | The loop builds one line per entry, in iteration order. |
| `TbcpayXml.Extras` | src/Provider/Pay/Tbcpay/XMLResponse.php:31-34 | The extras string is empty exactly when there is no data, and otherwise starts a tag. |
| `TbcpayXml.ExtrasEmpty` | src/Provider/Pay/Tbcpay/XMLResponse.php:36 | The extras string is falsy exactly when there is no data. |
| `TbcpayXml.ReadExtrasRoundTrip` | src/Provider/Pay/Tbcpay/XMLResponse.php:31-34 | Reading the extra lines back gives every entry's escaped name and value, in order. Nothing is truncated. |
| `TbcpayXml.EscapedDeterminesPairs` | src/Provider/Pay/Tbcpay/XMLResponse.php:33 | Escaped entries agree exactly when the entries agree. |
| `TbcpayXml.ExtrasDetermine` | src/Provider/Pay/Tbcpay/XMLResponse.php:31-34 | Two data sets give equal extras exactly when their escaped entries agree. |
| `TbcpayXml.SuccessWithoutInfo` | src/Provider/Pay/Tbcpay/XMLResponse.php:47-54 | The body is the plain one with no `<info>` exactly when the data is empty. |
| `TbcpayXml.SuccessWithInfo` | src/Provider/Pay/Tbcpay/XMLResponse.php:36-46 | Non-empty data gives the `<info>` body wrapping exactly the extra lines. |
| `TbcpayXml.SuccessBody` | src/Provider/Pay/Tbcpay/XMLResponse.php:29-58 | Every success body starts with the XML declaration and result 0. |
| `TbcpayXml.SuccessBodyDetermines` | src/Provider/Pay/Tbcpay/XMLResponse.php:29-58 | Two success bodies are equal exactly when the data's names and values agree, in order. |
| `TbcpayXml.ErrorBody` | src/Provider/Pay/Tbcpay/XMLResponse.php:60-72 | The error body carries the code verbatim as its result. |
| `TbcpayXml.ErrorBodyDetermines` | src/Provider/Pay/Tbcpay/XMLResponse.php:60-72 | For an inert code, the error body determines the verbatim code and the description cleaned to 125. |
| `TbcpayXml.Success` | src/Provider/Pay/Tbcpay/XMLResponse.php:23-27 | `success` renders the success body whatever the mode. |
| `TbcpayXml.Error` | src/Provider/Pay/Tbcpay/XMLResponse.php:17-21 | `error` renders the error body whatever the mode. |
| `BogProvider.New` | src/Provider/Card/Bog/Provider.php:20-22 | A Bog provider starts in redirect mode with no parameters. |
| `BogProvider.SetSuccessUrl` | src/Provider/Card/Bog/Provider.php:28-32 | Sets option `back_url_s`, which becomes the fourth fixed URL parameter. |
| `BogProvider.SetFailUrl` | src/Provider/Card/Bog/Provider.php:34-38 | Sets option `back_url_f`, which becomes the fifth fixed URL parameter. |
| `BogProvider.FixedParams` | src/Provider/Card/Bog/Provider.php:73-79 | Five parameters in order: lang (option `lang`, default `ka`), page_id, merch_id from option `merchant_id`, back_url_s and back_url_f, each with its option's value. |
| `BogProvider.Url` | src/Provider/Card/Bog/Provider.php:69-86 | The URL opens with the gateway, `?` and the encoded lang parameter. |
| `BogProvider.GetPaymentUrl` | src/Provider/Card/Bog/Provider.php:69-86 | The URL is the gateway (default page), the fixed parameters, then `o.<key>` per custom parameter. |
| `BogProvider.ReadPaymentUrl` | src/Provider/Card/Bog/Provider.php:69-86 | Read back, the URL carries exactly those parameters, in order, with intact values; keys are not encoded. |
| `BogProvider.ErrorReply` | src/Provider/Card/Bog/XMLResponse.php:17-25 | An error reply has a body exactly in check and reg modes. |
| `BogProvider.SuccessReply` | src/Provider/Card/Bog/XMLResponse.php:27-35 | A success reply has a body exactly in check and reg modes. |
| `BogProvider.SendErrorResponse` | src/Provider/Card/Bog/Provider.php:117-122 | Always sends the code-2 error reply of the current mode. |
| `BogProvider.CheckSignature` | src/Provider/Card/Bog/Provider.php:40-67 | Continues exactly when the signature is accepted. Otherwise it sends the error reply naming the reason. |
| `BogProvider.CheckData` | src/Provider/Card/Bog/Provider.php:92-95 | account_id comes from the options and currency from the options with default `981`; every other field is the caller's. |
| `BogProvider.SuccessOutcome` | src/Provider/Card/Bog/Provider.php:88-115 | Fails exactly in check mode with amount, short_desc or long_desc empty, with "<first empty field> not defined". Otherwise it sends the mode's success reply, built from the option-filled data in check mode and from the caller's data elsewhere. |
| `BogProvider.SendSuccessResponse` | src/Provider/Card/Bog/Provider.php:88-115 | Sends the reply as `SuccessOutcome` defines it. |
| `BogProvider.CheckDataKeepsRequired` | src/Provider/Card/Bog/Provider.php:93-109 | Overwriting account_id and currency does not affect which required field is found empty. |
| `CartuProvider.New` | src/Provider/Pay/Cartu/Provider.php:23 | A Cartu provider starts in redirect mode. |
| `CartuProvider.SetMode` | src/Provider/Pay/Cartu/Provider.php:31-33 | `setMode` always records the new mode. |
| `CartuProvider.FixedParams` | src/Provider/Pay/Cartu/Provider.php:114-124 | Seven parameters in order: CountryCode (default `01`), CurrencyCode (default `840`), MerchantName, MerchantURL, MerchantCity, MerchantID and xDDDSProxy.Language, each with the option of the same name. |
| `CartuProvider.Url` | src/Provider/Pay/Cartu/Provider.php:112-131 | The URL opens with the gateway, `?` and the encoded CountryCode parameter. |
| `CartuProvider.GetPaymentUrl` | src/Provider/Pay/Cartu/Provider.php:112-131 | The URL is the gateway, the fixed parameters, then each custom parameter under its own key. |
| `CartuProvider.ReadPaymentUrl` | src/Provider/Pay/Cartu/Provider.php:112-131 | Read back, the URL carries exactly those parameters, in order, with intact values. |
| `CartuProvider.CheckSignature` | src/Provider/Pay/Cartu/Provider.php:81-110 | The verdict is `Signature.Check` of the request's signature and URL: accepted exactly when the signature is non-empty and the verifier returns 1 for the signed bytes; a falsy one is rejected as missing and any other verifier result as invalid. |
| `CartuProvider.SuccessOutcome` | src/Provider/Pay/Cartu/Provider.php:133-150 | In every mode it fails exactly when TransactionId or PaymentId is empty, with "<first empty field> not defined"; otherwise it sends the ACCEPTED body. It never continues. |
| `CartuProvider.SendSuccessResponse` | src/Provider/Pay/Cartu/Provider.php:133-150 | Checks TransactionId, then PaymentId, then sends. |
| `CartuProvider.SentCarriesIds` | src/Provider/Pay/Cartu/Provider.php:137-145 | A reply is sent exactly when both ids are non-empty. A missing TransactionId is reported first. |
| `TbcpayProvider.New` | src/Provider/Pay/Tbcpay/Provider.php:22 | A TBC Pay provider starts in check mode. |
| `TbcpayProvider.SuccessOutcome` | src/Provider/Pay/Tbcpay/Provider.php:25-39 | Fails with "extra data not defined" exactly in check mode with empty data; otherwise sends the success body of the data. It never continues. |
| `TbcpayProvider.SendSuccessResponse` | src/Provider/Pay/Tbcpay/Provider.php:25-39 | Sends the reply as `SuccessOutcome` defines it. |
| `TbcpayProvider.EmptyDataOutsideCheck` | src/Provider/Pay/Tbcpay/Provider.php:29-38 | Outside check mode, empty data is answered with the plain success body. |
| `TbcpayProvider.CheckReplyHasInfo` | src/Provider/Pay/Tbcpay/Provider.php:29-38 | A check-mode reply always lists the data inside `<info>`. |
| `TbcpayProvider.SendErrorResponse` | src/Provider/Pay/Tbcpay/Provider.php:41-46 | Defaults to code 1 with "Unable to accept this payment" and passes both to the error body unchanged. |

## Left out

- Sending and exiting (`send`, `exit`, the HTTP response object): a reply
  ends in `Exit.Sent` carrying the rendered body.
- Cryptography and file access in `checkSignature` (`file_get_contents`,
  `openssl_pkey_get_public`, `base64_decode`, `openssl_verify`): these are an
  oracle. It receives the signed bytes and the signature text and returns an
  integer.
- `Signature.Check`: base64 decoding of the signature is part of the oracle.
- `CartuProvider.CheckSignature`: returns the verdict instead of sending an
  error reply. The Cartu `error()` passes undefined variables to
  `getCheckErrorBody`, so its error path is not modelled; the DECLINED body
  is modelled directly (`CartuXml.ErrorBody`).
- `CartuProvider.SendSuccessResponse`: the exception class is not imported
  in the source, so a failure is a plain `Exit.Failed` with the message. The
  unseen `Pay\AbstractProvider` and `Pay\Cartu\XMLResponse` are taken to be
  the shared base provider and the Card/Cartu response.
- `CartuProvider.SetMode`: the XML parsing of `ConfirmRequest` in response
  mode uses libxml and is not modelled. The XML getters and the Carbon date
  parsing are left out for the same reason.
- `AbstractProvider.AmtToMinor`: integer amounts only. PHP float arithmetic
  on decimal strings, `number_format` rounding of fractions and 64-bit
  overflow are not modelled.
- `AbstractProvider.AmtToMajor`: integer amounts only. The result is an
  exact rational, not a PHP float.
- `PhpValues.IntValShow`: `intval` is modelled on decimal text only, with
  leading whitespace and a sign. Exponent forms, hexadecimal prefixes,
  non-string values and saturation at the 64-bit bounds are not.
- `XmlResponse.Escape`: this is `htmlspecialchars` with ENT_COMPAT quoting,
  the default before PHP 8.1; newer defaults also escape `'`. Strings are
  sequences of code points, so the invalid-UTF-8 case does not arise.
- Option and array values are strings or null. Objects and numbers stored
  as options are not modelled.
- `AbstractProvider.Provider.GetParam`: the request is one map. Symfony's
  order of attributes, query and body parameters is not modelled.
- The request URL is given as a string; Symfony's URI normalisation is not
  modelled.
- `PHP_EOL` is taken to be a line feed.
- `redirect` (which also uses an undefined `$payment`), `checkHttpAuth`,
  `checkIpAllowed`, `getName`, `getResponse` and `format` for non-integer
  input are not modelled: they depend on headers, globals, an unseen `Ip`
  class or floats.
- Logger calls have no effect on results and are left out. `src/Logger.php`
  is not part of this model, and neither are `src/Payment.php` (Dotenv
  loading, request creation, Monolog wiring, reflective provider lookup) and
  the `src/Contracts/Options.php` interface.

=== FILE: abstract_provider.dfy ===
/**
 * The state and helpers every bank provider shares: the custom parameters,
 * the mode, parameter lookup with request fallback, amount conversion and
 * the required-field check used on the success path.
 */
module AbstractProvider {
  import opened Wrappers
  import opened PhpValues
  import opened OptionStore

  /**
   * How a provider call ends: it returns normally, it sends a response body
   * (None when no body was ever assigned) and exits, or it fails with an
   * exception carrying a message.
   */
  datatype Exit = Continue | Sent(body: Option<string>) | Failed(message: string)

  /** `str_replace('.', '_', $name)`: the form PHP gives request field names. */
  function Underscored(name: string): (r: string)
    ensures |r| == |name|
    ensures '.' !in r
    ensures forall i :: 0 <= i < |name| && name[i] == '.' ==> r[i] == '_'
    ensures forall i :: 0 <= i < |name| && name[i] != '.' ==> r[i] == name[i]
  {
    if name == [] then [] else [if name[0] == '.' then '_' else name[0]] + Underscored(name[1..])
  }

  /** Names without a dot are looked up in the request as they are. */
  lemma UnderscoredPlainName(name: string)
    requires '.' !in name
    ensures Underscored(name) == name
  {
  }

  class Provider {
    /** The bank-specific mode (`redirect`, `check`, `reg`, `response`, ...). */
    var mode: string
    /** Custom parameters, in insertion order. */
    var params: Entries
    const options: Options
    /** The process environment the options fall back to. */
    const env: Env
    /** Parameters of the current request (query and body), by name. */
    const request: map<string, string>
    /** The full URL of the current request. */
    const requestUrl: string

    ghost predicate Valid()
      reads this
    {
      DistinctKeys(params)
    }

    /** A provider starts with no custom parameters and its bank's default mode. */
    constructor (options: Options, env: Env, request: map<string, string>, requestUrl: string, mode: string)
      ensures Valid()
      ensures this.options == options && this.env == env && this.request == request && this.requestUrl == requestUrl
      ensures this.mode == mode && params == []
    {
      this.options := options;
      this.env := env;
      this.request := request;
      this.requestUrl := requestUrl;
      this.mode := mode;
      params := [];
    }

    /** `$this->options->get($name, $default)`. */
    function Option(name: string, default: Value): Value
      reads options
    {
      options.Get(name, env, default)
    }

    /** `$this->request->get($name, $default)`. */
    function RequestGet(name: string, default: Value): Value
    {
      if name in request then Some(request[name]) else default
    }

    /** `addParam($name, $value)`: set in place when the name exists, appended otherwise. */
    method AddParam(name: string, value: Value)
      requires Valid()
      modifies this
      ensures Valid()
      ensures params == Put(old(params), name, value)
      ensures Keys(params) == if name in Keys(old(params)) then Keys(old(params)) else Keys(old(params)) + [name]
      ensures value.Some? ==> forall d :: GetParam(name, d) == value
      ensures mode == old(mode)
    {
      params := Put(params, name, value);
    }

    /**
     * `getParam($name, $default)`: a custom parameter that is set and not
     * null; otherwise the request field, whose name has every `.` turned into `_`.
     */
    function GetParam(name: string, default: Value): (r: Value)
      reads this
      ensures Lookup(params, name).Some? ==> r == Lookup(params, name)
      ensures Lookup(params, name).None? ==> r == RequestGet(Underscored(name), default)
    {
      var v := Lookup(params, name);
      if v.Some? then v else RequestGet(Underscored(name), default)
    }

    /** `setMode($mode)`. */
    method SetMode(mode: string)
      modifies this
      ensures GetMode() == mode
      ensures params == old(params)
    {
      this.mode := mode;
    }

    /** `getMode()`. */
    function GetMode(): string
      reads this
    {
      mode
    }
  }

  // ---------------------------------------------------------------------------
  // Amounts (integer inputs)
  // ---------------------------------------------------------------------------

  predicate IsTrimmed(c: char)
  {
    c == ' ' || c == '\t' || c == '\n' || c == '\r' || c == '\0' || c == '\U{B}'
  }

  /** PHP `trim`: drops the trimmed characters at both ends. */
  function Trim(s: string): (r: string)
    ensures |r| <= |s|
    ensures r != [] ==> !IsTrimmed(r[0]) && !IsTrimmed(r[|r| - 1])
    decreases |s|
  {
    if s != [] && IsTrimmed(s[0]) then Trim(s[1..])
    else if s != [] && IsTrimmed(s[|s| - 1]) then Trim(s[..|s| - 1])
    else s
  }

  /** `str_replace([',', ' '], ['.', ''], $s)`: a comma becomes a decimal point, spaces are deleted. */
  function NormalizeSeparators(s: string): (r: string)
    ensures |r| <= |s|
    ensures ' ' !in r && ',' !in r
  {
    if s == [] then []
    else if s[0] == ',' then "." + NormalizeSeparators(s[1..])
    else if s[0] == ' ' then NormalizeSeparators(s[1..])
    else [s[0]] + NormalizeSeparators(s[1..])
  }

  lemma {:induction false} NormalizeKeepsInteger(s: string)
    requires forall i :: 0 <= i < |s| ==> IsDigit(s[i]) || s[i] == '-'
    ensures NormalizeSeparators(s) == s
  {
    if s != [] {
      NormalizeKeepsInteger(s[1..]);
    }
  }

  /**
   * `amtToMinor($amount)` for an integer amount: 0 short-cuts to 0; otherwise
   * the decimal text is trimmed and normalised, then multiplied by 100.
   */
  function AmtToMinor(amount: int): (r: int)
    ensures r == 100 * amount
  {
    if amount == 0 then 0
    else
      var s := Show(amount);
      assert Trim(s) == s by {
        assert s[0] == '-' || IsDigit(s[0]);
        assert s[|s| - 1] == '-' || IsDigit(s[|s| - 1]);
      }
      NormalizeKeepsInteger(s);
      IntValShow(amount);
      100 * IntVal(NormalizeSeparators(Trim(s)))
  }

  /** `number_format($x, 2)` read back as a number: rounded half away from zero to two decimals. */
  function Round2(x: real): real
  {
    var t := x * 100.0;
    var n := if t >= 0.0 then (t + 0.5).Floor else -((-t + 0.5).Floor);
    n as real / 100.0
  }

  /** Rounding to two decimals leaves a value that already has at most two decimals unchanged. */
  lemma Round2Exact(x: real, n: int)
    requires x * 100.0 == n as real
    ensures Round2(x) == x
  {
    var t := x * 100.0;
    if t >= 0.0 {
      assert (t + 0.5).Floor == n;
    } else {
      assert (-t + 0.5).Floor == -n;
    }
  }

  /** `amtToMajor($amount)` for an integer amount of minor units: divided by 100, then formatted. */
  function AmtToMajor(amount: int): (r: real)
    ensures r * 100.0 == amount as real
  {
    if amount == 0 then Round2(0.0)
    else
      Round2Exact(amount as real / 100.0, amount);
      Round2(amount as real / 100.0)
  }

  /** Converting a whole major amount to minor units and back gives the amount again. */
  lemma MajorOfMinor(n: int)
    ensures AmtToMajor(AmtToMinor(n)) == n as real
  {
  }

  /** Converting minor units to major and back gives the minor amount again, for whole major amounts. */
  lemma MinorOfMajor(k: int)
    ensures AmtToMinor(AmtToMajor(100 * k).Floor) == 100 * k
  {
    assert AmtToMajor(100 * k) == k as real;
  }

  // ---------------------------------------------------------------------------
  // Required fields
  // ---------------------------------------------------------------------------

  /**
   * The first of `names`, checked in order, whose value in `data` is empty
   * (PHP `empty`: missing, null, "" or "0"); None when all are filled.
   */
  function FirstEmpty(data: Entries, names: seq<string>): (r: Option<string>)
    ensures r.None? <==> forall i :: 0 <= i < |names| ==> !Empty(Lookup(data, names[i]))
    ensures r.Some? ==> exists i :: 0 <= i < |names| && names[i] == r.value && Empty(Lookup(data, names[i]))
                          && forall j :: 0 <= j < i ==> !Empty(Lookup(data, names[j]))
  {
    if names == [] then None
    else if Empty(Lookup(data, names[0])) then Some(names[0])
    else
      var r := FirstEmpty(data, names[1..]);
      assert r.Some? ==> exists i :: 1 <= i < |names| && names[i] == r.value && Empty(Lookup(data, names[i]))
                          && forall j :: 0 <= j < i ==> !Empty(Lookup(data, names[j])) by {
        if r.Some? {
          var i :| 0 <= i < |names[1..]| && names[1..][i] == r.value && Empty(Lookup(data, names[1..][i]))
                    && forall j :: 0 <= j < i ==> !Empty(Lookup(data, names[1..][j]));
          assert forall j :: 0 <= j < i + 1 ==> !Empty(Lookup(data, names[j])) by {
            forall j | 0 <= j < i + 1 ensures !Empty(Lookup(data, names[j])) {
              if j > 0 { assert names[j] == names[1..][j - 1]; }
            }
          }
        }
      }
      r
  }

  /** With two required fields, the first is reported before the second. */
  lemma FirstEmptyOfTwo(data: Entries, a: string, b: string)
    ensures FirstEmpty(data, [a, b])
            == if Empty(Lookup(data, a)) then Some(a) else if Empty(Lookup(data, b)) then Some(b) else None
  {
    assert [a, b][1..] == [b] && [b][1..] == [];
  }
}

=== FILE: bog_provider.dfy ===
/**
 * The Bank of Georgia card provider: the redirect URL to the payment
 * page, the callback signature check, and the replies to the bank's
 * availability-check and registration callbacks.
 */
module BogProvider {
  import opened Wrappers
  import opened PhpValues
  import opened OptionStore
  import opened RawUrl
  import opened PaymentUrl
  import opened Signature
  import opened XmlResponse
  import opened AbstractProvider
  import BogXml

  const DefaultMode := "redirect"
  const DefPaymentUrl := "https://sb3d.georgiancard.ge/payment/start.wsm"
  const DefCurrency := "981"
  const DefLang := "ka"

  /** A Bog provider starts in redirect mode with no custom parameters. */
  method New(options: Options, env: Env, request: map<string, string>, requestUrl: string) returns (p: Provider)
    ensures fresh(p) && p.Valid()
    ensures p.options == options && p.env == env && p.request == request && p.requestUrl == requestUrl
    ensures p.GetMode() == DefaultMode && p.params == []
  {
    p := new Provider(options, env, request, requestUrl, DefaultMode);
  }

  /** `setSuccessUrl($url)`: the option later sent as `back_url_s`. */
  method SetSuccessUrl(p: Provider, url: Value)
    modifies p.options
    ensures p.options.data == old(p.options.data)["back_url_s" := url]
    ensures url.Some? ==> FixedParams(p)[3] == Param("back_url_s", url.value)
  {
    p.options.Set("back_url_s", url);
  }

  /** `setFailUrl($url)`: the option later sent as `back_url_f`. */
  method SetFailUrl(p: Provider, url: Value)
    modifies p.options
    ensures p.options.data == old(p.options.data)["back_url_f" := url]
    ensures url.Some? ==> FixedParams(p)[4] == Param("back_url_f", url.value)
  {
    p.options.Set("back_url_f", url);
  }

  // ---------------------------------------------------------------------------
  // Payment URL
  // ---------------------------------------------------------------------------

  /** The payment page address: option `payment_url`, by default the bank's page. */
  function Gateway(p: Provider): string
    reads p.options
  {
    Text(p.Option("payment_url", Some(DefPaymentUrl)))
  }

  /**
   * The fixed query parameters, in order: `lang` (default `ka`), `page_id`,
   * `merch_id` (option `merchant_id`), `back_url_s`, `back_url_f`; a missing
   * option gives an empty value.
   */
  function FixedParams(p: Provider): (ps: seq<Param>)
    reads p.options
    ensures |ps| == 5
    ensures ps[0] == Param("lang", Text(p.Option("lang", Some(DefLang))))
    ensures ps[1] == Param("page_id", Text(p.Option("page_id", None)))
    ensures ps[2] == Param("merch_id", Text(p.Option("merchant_id", None)))
    ensures ps[3] == Param("back_url_s", Text(p.Option("back_url_s", None)))
    ensures ps[4] == Param("back_url_f", Text(p.Option("back_url_f", None)))
  {
    [ Param("lang", Text(p.Option("lang", Some(DefLang)))),
      Param("page_id", Text(p.Option("page_id", None))),
      Param("merch_id", Text(p.Option("merchant_id", None))),
      Param("back_url_s", Text(p.Option("back_url_s", None))),
      Param("back_url_f", Text(p.Option("back_url_f", None))) ]
  }

  /** Every parameter of the URL: the fixed ones, then the custom ones named `o.<key>`. */
  function UrlParams(p: Provider): (ps: seq<Param>)
    reads p, p.options
    ensures |ps| == 5 + |p.params|
  {
    FixedParams(p) + Custom("o.", p.params)
  }

  /** The URL `getPaymentUrl` returns. */
  function Url(p: Provider): (url: string)
    reads p, p.options
    ensures Gateway(p) + "?" + Segment(FixedParams(p)[0]) <= url
  {
    BuildStartsWith(Gateway(p), UrlParams(p)[0], UrlParams(p)[1..]);
    Build(Gateway(p), UrlParams(p)[0], UrlParams(p)[1..])
  }

  /**
   * `getPaymentUrl()`: the gateway, the fixed parameters one after another,
   * then the loop over the custom ones.
   */
  method GetPaymentUrl(p: Provider) returns (url: string)
    ensures url == Url(p)
  {
    var fixed := FixedParams(p);
    url := Build(Gateway(p), fixed[0], fixed[1..]);
    url := AppendCustom(url, "o.", p.params);
    BuildAppend(Gateway(p), fixed[0], fixed[1..], Custom("o.", p.params));
    FirstAndRest(fixed, Custom("o.", p.params));
  }

  lemma FixedPlain(ps: seq<Param>)
    requires |ps| == 5
    requires ps[0].name == "lang" && ps[1].name == "page_id" && ps[2].name == "merch_id"
    requires ps[3].name == "back_url_s" && ps[4].name == "back_url_f"
    ensures forall i :: 0 <= i < 5 ==> PlainName(ps[i].name)
  {
    NamesPlain();
  }

  lemma NamesPlain()
    ensures PlainName("lang") && PlainName("page_id") && PlainName("merch_id")
    ensures PlainName("back_url_s") && PlainName("back_url_f")
  {
  }

  /**
   * Read back, the URL carries exactly the fixed parameters in their order
   * and then every custom parameter as `o.<key>`, in insertion order, each
   * value intact.
   */
  lemma ReadPaymentUrl(p: Provider)
    requires '?' !in Gateway(p)
    requires forall i :: 0 <= i < |p.params| ==> PlainName(p.params[i].key)
    ensures Read(Url(p)) == Carried(UrlParams(p))
  {
    var fixed, custom := FixedParams(p), Custom("o.", p.params);
    FixedPlain(fixed);
    CustomPlain("o.", p.params);
    var ps := fixed + custom;
    assert forall i :: 0 <= i < |ps| ==> PlainName(ps[i].name) by {
      forall i | 0 <= i < |ps| ensures PlainName(ps[i].name) {
        if i >= 5 { assert ps[i] == custom[i - 5]; }
      }
    }
    ReadBuild(Gateway(p), ps[0], ps[1..]);
    assert [ps[0]] + ps[1..] == ps;
  }

  // ---------------------------------------------------------------------------
  // Callback replies
  // ---------------------------------------------------------------------------

  /** The body an error reply sends in `mode`; modes other than check and reg never assign one. */
  function ErrorReply(mode: string, desc: string): (body: Option<string>)
    ensures body.Some? <==> mode == "check" || mode == "reg"
  {
    if mode == "check" then Some(BogXml.CheckErrorBody(desc))
    else if mode == "reg" then Some(BogXml.RegErrorBody(desc))
    else None
  }

  /** The body a success reply sends in `mode` for `data`; modes other than check and reg never assign one. */
  function SuccessReply(mode: string, data: Entries): (body: Option<string>)
    ensures body.Some? <==> mode == "check" || mode == "reg"
  {
    if mode == "check" then Some(BogXml.CheckSuccessBody(data))
    else if mode == "reg" then Some(BogXml.RegSuccessBody)
    else None
  }


  /** `sendErrorResponse($error)`: an error reply with code 2, then the script exits. */
  method SendErrorResponse(p: Provider, error: string := DefaultErrorDesc) returns (exit: Exit)
    ensures exit == Sent(ErrorReply(p.mode, error))
  {
    var r := new Response(p.mode);
    BogXml.Error(r, "2", error);
    exit := Sent(r.GetContent());
  }

  /**
   * `checkSignature()`: a missing signature or one the verifier does not
   * accept ends the script with an error reply naming the reason; an
   * accepted one lets it continue.
   */
  method CheckSignature(p: Provider, verify: (seq<Byte>, string) -> int) returns (exit: Exit)
    ensures exit == Continue <==> Check(p.RequestGet("signature", None), p.requestUrl, verify) == Accepted
    ensures Check(p.RequestGet("signature", None), p.requestUrl, verify).Rejected? ==>
              exit == Sent(ErrorReply(p.mode, Check(p.RequestGet("signature", None), p.requestUrl, verify).reason))
  {
    var verdict := Check(p.RequestGet("signature", None), p.requestUrl, verify);
    if verdict.Rejected? {
      exit := SendErrorResponse(p, verdict.reason);
    } else {
      exit := Continue;
    }
  }

  /** The fields check mode requires, in the order they are checked. */
  const Required := ["amount", "short_desc", "long_desc"]

  /** In check mode the account id and currency always come from the options (currency default `981`). */
  function CheckData(p: Provider, data: Entries): (d: Entries)
    reads p.options
    ensures Field(d, "account_id") == Text(p.Option("account_id", None))
    ensures Field(d, "currency") == Text(p.Option("currency", Some(DefCurrency)))
    ensures forall k :: k != "account_id" && k != "currency" ==> Field(d, k) == Field(data, k)
  {
    assert "account_id" != "currency" by { assert "account_id"[0] != "currency"[0]; }
    OverwriteTwo(data, "account_id", p.Option("account_id", None), "currency", p.Option("currency", Some(DefCurrency)));
    Put(Put(data, "account_id", p.Option("account_id", None)), "currency", p.Option("currency", Some(DefCurrency)))
  }

  /**
   * The outcome of `sendSuccessResponse($data)`: in check mode, the first of
   * amount, short_desc and long_desc that is empty fails with
   * "<field> not defined"; otherwise the success reply is sent. Other modes
   * are not checked.
   */
  function SuccessOutcome(p: Provider, data: Entries): (exit: Exit)
    reads p, p.options
    ensures exit.Failed? <==> p.mode == "check" && FirstEmpty(data, Required).Some?
    ensures exit.Failed? ==> exit.message == FirstEmpty(data, Required).value + " not defined"
    ensures !exit.Failed? ==> exit == Sent(SuccessReply(p.mode, if p.mode == "check" then CheckData(p, data) else data))
  {
    CheckDataKeepsRequired(p, data);
    if p.mode == "check" then
      var d := CheckData(p, data);
      match FirstEmpty(d, Required)
      case Some(field) => Failed(field + " not defined")
      case None => Sent(SuccessReply(p.mode, d))
    else Sent(SuccessReply(p.mode, data))
  }

  /** `sendSuccessResponse($data)`. */
  method SendSuccessResponse(p: Provider, data: Entries := []) returns (exit: Exit)
    ensures exit == SuccessOutcome(p, data)
  {
    var r := new Response(p.mode);
    var d := data;
    if p.mode == "check" {
      d := Put(d, "account_id", p.Option("account_id", None));
      d := Put(d, "currency", p.Option("currency", Some(DefCurrency)));
      var missing := FirstEmpty(d, Required);
      if missing.Some? {
        return Failed(missing.value + " not defined");
      }
    }
    BogXml.Success(r, d);
    exit := Sent(r.GetContent());
  }

  /** The fields the check mode requires are never the ones it overwrites, so the caller's values are checked. */
  lemma {:induction false} CheckDataKeepsRequired(p: Provider, data: Entries)
    ensures FirstEmpty(CheckData(p, data), Required) == FirstEmpty(data, Required)
  {
    var d := CheckData(p, data);
    RequiredNotOverwritten();
    assert forall i :: 0 <= i < |Required| ==> Lookup(d, Required[i]) == Lookup(data, Required[i]);
    FirstEmptySame(d, data, Required);
  }

  lemma RequiredNotOverwritten()
    ensures forall i :: 0 <= i < |Required| ==> Required[i] != "account_id" && Required[i] != "currency"
  {
    assert "amount"[1] == 'm' && "short_desc"[0] == 's' && "long_desc"[0] == 'l';
    assert "account_id"[0] == 'a' && "account_id"[1] == 'c' && "currency"[0] == 'c';
  }

  lemma {:induction false} FirstEmptySame(d: Entries, e: Entries, names: seq<string>)
    requires forall i :: 0 <= i < |names| ==> Lookup(d, names[i]) == Lookup(e, names[i])
    ensures FirstEmpty(d, names) == FirstEmpty(e, names)
  {
    if names != [] {
      FirstEmptySame(d, e, names[1..]);
    }
  }

  /** Overwriting two distinct fields changes those two and no other. */
  lemma OverwriteTwo(data: Entries, a: string, av: Value, b: string, bv: Value)
    requires a != b
    ensures Field(Put(Put(data, a, av), b, bv), a) == Text(av)
    ensures Field(Put(Put(data, a, av), b, bv), b) == Text(bv)
    ensures forall k :: k != a && k != b ==> Field(Put(Put(data, a, av), b, bv), k) == Field(data, k)
  {
  }
}

=== FILE: bog_xml.dfy ===
/**
 * The Bank of Georgia card gateway's XML answers: the availability check
 * (`payment-avail-response`) and the payment registration
 * (`register-payment-response`), each with a success and an error body;
 * `success` and `error` pick the body by the response mode.
 */
module BogXml {
  import opened Wrappers
  import opened PhpValues
  import opened XmlResponse

  // ---------------------------------------------------------------------------
  // Check mode, success
  // ---------------------------------------------------------------------------

  /** The opening of every check body, up to the result code. */
  const CheckHead := "<payment-avail-response>\n    <result>\n        <code>"

  const CheckSuccessRest := "</code>  <!-- Result code -->\n        <desc>OK</desc>\n    </result>\n    <!-- Merchant transaction id -->\n    <merchant-trx>"

  /** The literal text around the six interpolated fields, in template order. */
  const CheckSuccessSegments: seq<string> := [
    CheckHead + "1" + CheckSuccessRest,
    Tag("/merchant-trx>\n    <purchase>\n        <!-- Purchase short desctiption. max 30 char -->\n        <shortDesc>"),
    Tag("/shortDesc>\n        <!-- Purchase long desctiption. max 125 char -->\n        <longDesc>"),
    Tag("/longDesc>\n\n        <!-- Account id list -->\n        <account-amount>\n            <!-- Account id -->\n            <id>"),
    Tag("/id>\n            <!-- Amount in cents -->\n            <amount>"),
    Tag("/amount>\n            <!-- Currency code (ISO 4217)-->\n            <currency>"),
    Tag("/currency>\n            <!-- Currency exponent (ISO 4217)-->\n            <exponent>2</exponent>\n        </account-amount>\n    </purchase>\n</payment-avail-response>")
  ]

  /** `$trx_id`: the merchant transaction id, escaped and limited to 50 code points. */
  function TrxId(data: Entries): (v: string)
    ensures v <= Escape(Field(data, "trx_id")) && |v| <= 50
    ensures |v| == if |Escape(Field(data, "trx_id"))| < 50 then |Escape(Field(data, "trx_id"))| else 50
    ensures Inert(v)
  {
    Clean(Field(data, "trx_id"), 50)
  }

  /** `$short_desc`: escaped and limited to 30 code points. */
  function ShortDesc(data: Entries): (v: string)
    ensures v <= Escape(Field(data, "short_desc")) && |v| <= 30
    ensures |v| == if |Escape(Field(data, "short_desc"))| < 30 then |Escape(Field(data, "short_desc"))| else 30
    ensures Inert(v)
  {
    Clean(Field(data, "short_desc"), 30)
  }

  /** `$long_desc`: escaped and limited to 125 code points. */
  function LongDesc(data: Entries): (v: string)
    ensures v <= Escape(Field(data, "long_desc")) && |v| <= 125
    ensures |v| == if |Escape(Field(data, "long_desc"))| < 125 then |Escape(Field(data, "long_desc"))| else 125
    ensures Inert(v)
  {
    Clean(Field(data, "long_desc"), 125)
  }

  /** `$account_id`: escaped and limited to 32 code points. */
  function AccountId(data: Entries): (v: string)
    ensures v <= Escape(Field(data, "account_id")) && |v| <= 32
    ensures |v| == if |Escape(Field(data, "account_id"))| < 32 then |Escape(Field(data, "account_id"))| else 32
    ensures Inert(v)
  {
    Clean(Field(data, "account_id"), 32)
  }

  /** `$amount`: the integer value of the input, written in decimal, which reads back as that integer. */
  function Amount(data: Entries): (v: string)
    ensures v == Show(IntVal(Field(data, "amount")))
    ensures IntVal(v) == IntVal(Field(data, "amount"))
    ensures Inert(v)
  {
    var amount := IntVal(Field(data, "amount"));
    IntValShow(amount);
    ShowInert(amount);
    Show(amount)
  }

  /** `$currency`: escaped but never shortened. */
  function Currency(data: Entries): (v: string)
    ensures v == Escape(Field(data, "currency"))
  {
    Clean(Field(data, "currency"), 0)
  }

  /** The six values the check success template interpolates, in template order. */
  function CheckSuccessValues(data: Entries): (vs: seq<string>)
    ensures vs == [TrxId(data), ShortDesc(data), LongDesc(data), AccountId(data), Amount(data), Currency(data)]
    ensures AllInert(vs)
  {
    var a, b, c, d, e, f := TrxId(data), ShortDesc(data), LongDesc(data), AccountId(data), Amount(data), Currency(data);
    SixInert(a, b, c, d, e, f);
    [a, b, c, d, e, f]
  }

  lemma SixInert(a: string, b: string, c: string, d: string, e: string, f: string)
    requires Inert(a) && Inert(b) && Inert(c) && Inert(d) && Inert(e) && Inert(f)
    ensures AllInert([a, b, c, d, e, f])
  {
  }

  /** A rendered integer holds only digits and a sign. */
  lemma ShowInert(n: int)
    ensures Inert(Show(n))
  {
  }

  /** `getCheckSuccessBody($data)`. */
  function CheckSuccessBody(data: Entries): (body: string)
    ensures CheckHead + "1" <= body
  {
    FillStartsWith(CheckSuccessSegments, CheckSuccessValues(data));
    Fill(CheckSuccessSegments, CheckSuccessValues(data))
  }

  lemma CheckSuccessSegmentsDelimited()
    ensures |CheckSuccessSegments| == 7
    ensures TagDelimited(CheckSuccessSegments)
  {
  }

  /**
   * The check success body determines every field it carries: two data
   * sets render alike exactly when their cleaned fields agree.
   */
  lemma {:induction false} CheckSuccessBodyDetermines(d: Entries, e: Entries)
    ensures CheckSuccessBody(d) == CheckSuccessBody(e) <==> CheckSuccessValues(d) == CheckSuccessValues(e)
  {
    if CheckSuccessBody(d) == CheckSuccessBody(e) {
      CheckSuccessSegmentsDelimited();
      FillDeterminesValues(CheckSuccessSegments, CheckSuccessSegments, CheckSuccessValues(d), CheckSuccessValues(e));
    }
  }

  // ---------------------------------------------------------------------------
  // Check mode, error
  // ---------------------------------------------------------------------------

  const CheckErrorSegments: seq<string> := [
    CheckHead + "2" + "</code>\n        <desc>",
    Tag("/desc>\n    </result>\n</payment-avail-response>")
  ]

  /** `getCheckErrorBody($code, $desc)`: the code is always 2, whatever is passed; the description is limited to 125. */
  function CheckErrorBody(desc: string): (body: string)
    ensures CheckHead + "2" <= body
  {
    FillStartsWith(CheckErrorSegments, [Clean(desc, 125)]);
    Fill(CheckErrorSegments, [Clean(desc, 125)])
  }

  /** The check error body determines its cleaned description. */
  lemma {:induction false} CheckErrorBodyDetermines(d: string, e: string)
    ensures CheckErrorBody(d) == CheckErrorBody(e) <==> Clean(d, 125) == Clean(e, 125)
  {
    if CheckErrorBody(d) == CheckErrorBody(e) {
      assert TagDelimited(CheckErrorSegments);
      FillDeterminesValues(CheckErrorSegments, CheckErrorSegments, [Clean(d, 125)], [Clean(e, 125)]);
    }
  }

  /** A check error can never be mistaken for a check success: the result codes differ. */
  lemma {:induction false} CheckErrorIsNotSuccess(desc: string, data: Entries)
    ensures CheckErrorBody(desc)[|CheckHead|] == '2'
    ensures CheckSuccessBody(data)[|CheckHead|] == '1'
    ensures CheckErrorBody(desc) != CheckSuccessBody(data)
  {
    FillStartsWith(CheckErrorSegments, [Clean(desc, 125)]);
    FillStartsWith(CheckSuccessSegments, CheckSuccessValues(data));
    assert CheckErrorSegments[0][|CheckHead|] == '2' by { CharAt(CheckHead, '2', "</code>\n        <desc>"); }
    assert CheckSuccessSegments[0][|CheckHead|] == '1' by { CharAt(CheckHead, '1', CheckSuccessRest); }
  }

  // ---------------------------------------------------------------------------
  // Reg mode
  // ---------------------------------------------------------------------------

  /** The opening of every reg body, up to the result code. */
  const RegHead := "<register-payment-response>\n    <result>\n        <code>"

  /** `getRegSuccessBody($data)`: a constant; the data is not used. */
  const RegSuccessBody := RegHead + "1" + "</code> <!-- Result code -->\n        <desc>OK</desc>\n    </result>\n</register-payment-response>"

  const RegErrorSegments: seq<string> := [
    RegHead + "2" + "</code> <!-- Result code -->\n        <desc>",
    Tag("/desc>\n    </result>\n</register-payment-response>")
  ]

  /** `getRegErrorBody($code, $desc)`: code 2 whatever is passed, the description limited to 125. */
  function RegErrorBody(desc: string): (body: string)
    ensures RegHead + "2" <= body
  {
    FillStartsWith(RegErrorSegments, [Clean(desc, 125)]);
    Fill(RegErrorSegments, [Clean(desc, 125)])
  }

  /** The reg error body determines its cleaned description. */
  lemma {:induction false} RegErrorBodyDetermines(d: string, e: string)
    ensures RegErrorBody(d) == RegErrorBody(e) <==> Clean(d, 125) == Clean(e, 125)
  {
    if RegErrorBody(d) == RegErrorBody(e) {
      assert TagDelimited(RegErrorSegments);
      FillDeterminesValues(RegErrorSegments, RegErrorSegments, [Clean(d, 125)], [Clean(e, 125)]);
    }
  }

  /** A reg error can never be mistaken for the reg success body. */
  lemma {:induction false} RegErrorIsNotSuccess(desc: string)
    ensures RegErrorBody(desc)[|RegHead|] == '2'
    ensures RegSuccessBody[|RegHead|] == '1'
    ensures RegErrorBody(desc) != RegSuccessBody
  {
    FillStartsWith(RegErrorSegments, [Clean(desc, 125)]);
    assert RegErrorSegments[0][|RegHead|] == '2' by { CharAt(RegHead, '2', "</code> <!-- Result code -->\n        <desc>"); }
    CharAt(RegHead, '1', "</code> <!-- Result code -->\n        <desc>OK</desc>\n    </result>\n</register-payment-response>");
  }

  // ---------------------------------------------------------------------------
  // success / error
  // ---------------------------------------------------------------------------

  const DefaultErrorCode := "2"

  /** `success($data)`: the check or reg success body, by mode; any other mode leaves the content as it was. */
  method Success(r: Response, data: Entries := [])
    modifies r
    ensures r.mode == "check" ==> r.GetContent() == Some(CheckSuccessBody(data))
    ensures r.mode == "reg" ==> r.GetContent() == Some(RegSuccessBody)
    ensures r.mode != "check" && r.mode != "reg" ==> r.content == old(r.content)
  {
    if r.mode == "check" {
      r.content := Some(CheckSuccessBody(data));
    } else if r.mode == "reg" {
      r.content := Some(RegSuccessBody);
    }
  }

  /**
   * `error($code, $desc)`: the check or reg error body, by mode; the code
   * argument does not reach either body. Any other mode leaves the content
   * as it was.
   */
  method Error(r: Response, code: string := DefaultErrorCode, desc: string := DefaultErrorDesc)
    modifies r
    ensures r.mode == "check" ==> r.GetContent() == Some(CheckErrorBody(desc))
    ensures r.mode == "reg" ==> r.GetContent() == Some(RegErrorBody(desc))
    ensures r.mode != "check" && r.mode != "reg" ==> r.content == old(r.content)
  {
    if r.mode == "check" {
      r.content := Some(CheckErrorBody(desc));
    } else if r.mode == "reg" {
      r.content := Some(RegErrorBody(desc));
    }
  }
}

=== FILE: cartu_provider.dfy ===
/**
 * The Cartu bank provider: the redirect URL to the 3-D Secure proxy, the
 * callback signature check and the checks before a confirmation reply.
 */
module CartuProvider {
  import opened Wrappers
  import opened PhpValues
  import opened OptionStore
  import opened RawUrl
  import opened PaymentUrl
  import opened Signature
  import opened XmlResponse
  import opened AbstractProvider
  import CartuXml

  const DefaultMode := "redirect"
  const DefPaymentUrl := "https://e-commerce.cartubank.ge/servlet/Process3DSServlet/3dsproxy_init.jsp"
  const DefCurrency := "840"
  const DefLang := "01"

  /** A Cartu provider starts in redirect mode with no custom parameters. */
  method New(options: Options, env: Env, request: map<string, string>, requestUrl: string) returns (p: Provider)
    ensures fresh(p) && p.Valid()
    ensures p.options == options && p.env == env && p.request == request && p.requestUrl == requestUrl
    ensures p.GetMode() == DefaultMode && p.params == []
  {
    p := new Provider(options, env, request, requestUrl, DefaultMode);
  }

  /** `setMode($mode)`: the mode is always recorded; the parameters are untouched. */
  method SetMode(p: Provider, mode: string)
    modifies p
    ensures p.GetMode() == mode
    ensures p.params == old(p.params)
  {
    p.SetMode(mode);
  }

  // ---------------------------------------------------------------------------
  // Payment URL
  // ---------------------------------------------------------------------------

  /** The proxy address: option `payment_url`, by default the bank's proxy. */
  function Gateway(p: Provider): string
    reads p.options
  {
    Text(p.Option("payment_url", Some(DefPaymentUrl)))
  }

  /**
   * The fixed query parameters, in order: `CountryCode` (default `01`),
   * `CurrencyCode` (default `840`), `MerchantName`, `MerchantURL`,
   * `MerchantCity`, `MerchantID`, `xDDDSProxy.Language`; each is the option
   * of the same name, empty when missing.
   */
  function FixedParams(p: Provider): (ps: seq<Param>)
    reads p.options
    ensures |ps| == 7
    ensures ps[0] == Param("CountryCode", Text(p.Option("CountryCode", Some(DefLang))))
    ensures ps[1] == Param("CurrencyCode", Text(p.Option("CurrencyCode", Some(DefCurrency))))
    ensures ps[2].name == "MerchantName" && ps[3].name == "MerchantURL" && ps[4].name == "MerchantCity"
    ensures ps[5].name == "MerchantID" && ps[6].name == "xDDDSProxy.Language"
    ensures forall i :: 2 <= i < 7 ==> ps[i] == Param(ps[i].name, Text(p.Option(ps[i].name, None)))
  {
    [ Param("CountryCode", Text(p.Option("CountryCode", Some(DefLang)))),
      Param("CurrencyCode", Text(p.Option("CurrencyCode", Some(DefCurrency)))),
      Param("MerchantName", Text(p.Option("MerchantName", None))),
      Param("MerchantURL", Text(p.Option("MerchantURL", None))),
      Param("MerchantCity", Text(p.Option("MerchantCity", None))),
      Param("MerchantID", Text(p.Option("MerchantID", None))),
      Param("xDDDSProxy.Language", Text(p.Option("xDDDSProxy.Language", None))) ]
  }

  /** Every parameter of the URL: the fixed ones, then the custom ones under their own names. */
  function UrlParams(p: Provider): (ps: seq<Param>)
    reads p, p.options
    ensures |ps| == 7 + |p.params|
  {
    FixedParams(p) + Custom("", p.params)
  }

  /** The URL `getPaymentUrl` returns. */
  function Url(p: Provider): (url: string)
    reads p, p.options
    ensures Gateway(p) + "?" + Segment(FixedParams(p)[0]) <= url
  {
    BuildStartsWith(Gateway(p), UrlParams(p)[0], UrlParams(p)[1..]);
    Build(Gateway(p), UrlParams(p)[0], UrlParams(p)[1..])
  }

  /**
   * `getPaymentUrl()`: the gateway, the fixed parameters one after another,
   * then the loop over the custom ones, with no prefix.
   */
  method GetPaymentUrl(p: Provider) returns (url: string)
    ensures url == Url(p)
  {
    var fixed := FixedParams(p);
    url := Build(Gateway(p), fixed[0], fixed[1..]);
    url := AppendCustom(url, "", p.params);
    BuildAppend(Gateway(p), fixed[0], fixed[1..], Custom("", p.params));
    FirstAndRest(fixed, Custom("", p.params));
  }

  lemma FixedPlain(ps: seq<Param>)
    requires |ps| == 7
    requires ps[0].name == "CountryCode" && ps[1].name == "CurrencyCode" && ps[2].name == "MerchantName"
    requires ps[3].name == "MerchantURL" && ps[4].name == "MerchantCity" && ps[5].name == "MerchantID"
    requires ps[6].name == "xDDDSProxy.Language"
    ensures forall i :: 0 <= i < 7 ==> PlainName(ps[i].name)
  {
    CodeNamesPlain();
    MerchantNamesPlain();
  }

  lemma CodeNamesPlain()
    ensures PlainName("CountryCode") && PlainName("CurrencyCode") && PlainName("xDDDSProxy.Language")
  {
  }

  lemma MerchantNamesPlain()
    ensures PlainName("MerchantName") && PlainName("MerchantURL") && PlainName("MerchantCity") && PlainName("MerchantID")
  {
  }

  /**
   * Read back, the URL carries exactly the fixed parameters in their order
   * and then every custom parameter under its own key, in insertion order,
   * each value intact.
   */
  lemma ReadPaymentUrl(p: Provider)
    requires '?' !in Gateway(p)
    requires forall i :: 0 <= i < |p.params| ==> PlainName(p.params[i].key)
    ensures Read(Url(p)) == Carried(UrlParams(p))
  {
    var fixed, custom := FixedParams(p), Custom("", p.params);
    FixedPlain(fixed);
    CustomPlain("", p.params);
    var ps := fixed + custom;
    assert forall i :: 0 <= i < |ps| ==> PlainName(ps[i].name) by {
      forall i | 0 <= i < |ps| ensures PlainName(ps[i].name) {
        if i >= 7 { assert ps[i] == custom[i - 7]; }
      }
    }
    ReadBuild(Gateway(p), ps[0], ps[1..]);
    assert [ps[0]] + ps[1..] == ps;
  }

  // ---------------------------------------------------------------------------
  // Callbacks
  // ---------------------------------------------------------------------------

  /**
   * `checkSignature()`: the verdict on the `signature` request field for
   * the signed bytes of the request URL.
   */
  method CheckSignature(p: Provider, verify: (seq<Byte>, string) -> int) returns (v: Verdict)
    ensures v == Accepted <==> !Empty(p.RequestGet("signature", None))
                               && verify(SignedString(p.requestUrl), p.RequestGet("signature", None).value) == 1
    ensures Empty(p.RequestGet("signature", None)) ==> v == Rejected(MissingReason)
    ensures !Empty(p.RequestGet("signature", None)) &&
            verify(SignedString(p.requestUrl), p.RequestGet("signature", None).value) != 1 ==>
              v == Rejected(InvalidReason)
    ensures v == Check(p.RequestGet("signature", None), p.requestUrl, verify)
  {
    v := Check(p.RequestGet("signature", None), p.requestUrl, verify);
  }

  /** The fields a confirmation requires, in the order they are checked. */
  const Required := ["TransactionId", "PaymentId"]

  /**
   * The outcome of `sendSuccessResponse($data)`, in every mode: the first of
   * TransactionId and PaymentId that is empty fails with "<field> not
   * defined"; otherwise the ACCEPTED confirmation is sent.
   */
  function SuccessOutcome(data: Entries): (exit: Exit)
    ensures exit.Failed? <==> FirstEmpty(data, Required).Some?
    ensures exit.Failed? ==> exit.message == FirstEmpty(data, Required).value + " not defined"
    ensures !exit.Failed? ==> exit == Sent(Some(CartuXml.SuccessBody(data)))
  {
    match FirstEmpty(data, Required)
    case Some(field) => Failed(field + " not defined")
    case None => Sent(Some(CartuXml.SuccessBody(data)))
  }

  /** `sendSuccessResponse($data)`. */
  method SendSuccessResponse(p: Provider, data: Entries := []) returns (exit: Exit)
    ensures exit == SuccessOutcome(data)
  {
    var r := new Response(p.mode);
    assert Required[0] == "TransactionId" && Required[1..] == ["PaymentId"];
    if Empty(Lookup(data, "TransactionId")) {
      return Failed("TransactionId not defined");
    }
    if Empty(Lookup(data, "PaymentId")) {
      assert FirstEmpty(data, Required[1..]) == Some("PaymentId");
      return Failed("PaymentId not defined");
    }
    CartuXml.Success(r, data);
    exit := Sent(r.GetContent());
  }

  /** A confirmation is sent exactly when both ids are present, and then it carries them, cleaned. */
  lemma SentCarriesIds(data: Entries)
    ensures SuccessOutcome(data).Sent? <==> !Empty(Lookup(data, "TransactionId")) && !Empty(Lookup(data, "PaymentId"))
    ensures SuccessOutcome(data).Failed? && Empty(Lookup(data, "TransactionId")) ==>
              SuccessOutcome(data).message == "TransactionId not defined"
    ensures SuccessOutcome(data).Failed? && !Empty(Lookup(data, "TransactionId")) ==>
              SuccessOutcome(data).message == "PaymentId not defined"
  {
    FirstEmptyOfTwo(data, "TransactionId", "PaymentId");
    NotDefinedMessages();
  }

  /** The two failure messages, spelled out. */
  lemma NotDefinedMessages()
    ensures Required == ["TransactionId", "PaymentId"]
    ensures "TransactionId" + " not defined" == "TransactionId not defined"
    ensures "PaymentId" + " not defined" == "PaymentId not defined"
  {
  }
}

=== FILE: cartu_xml.dfy ===
/**
 * The Cartu bank's XML answer to a payment confirmation: a `ConfirmResponse`
 * carrying the transaction and payment ids and a status, ACCEPTED on
 * success and DECLINED on error.
 */
module CartuXml {
  import opened Wrappers
  import opened PhpValues
  import opened XmlResponse

  /** `$TransactionId`: escaped and limited to 32 code points. */
  function TransactionId(data: Entries): (v: string)
    ensures v <= Escape(Field(data, "TransactionId")) && |v| <= 32
    ensures |v| == if |Escape(Field(data, "TransactionId"))| < 32 then |Escape(Field(data, "TransactionId"))| else 32
    ensures Inert(v)
  {
    Clean(Field(data, "TransactionId"), 32)
  }

  /** `$PaymentId`: escaped and limited to 12 code points. */
  function PaymentId(data: Entries): (v: string)
    ensures v <= Escape(Field(data, "PaymentId")) && |v| <= 12
    ensures |v| == if |Escape(Field(data, "PaymentId"))| < 12 then |Escape(Field(data, "PaymentId"))| else 12
    ensures Inert(v)
  {
    Clean(Field(data, "PaymentId"), 12)
  }

  const Accepted := "ACCEPTED"
  const Declined := "DECLINED"

  const StatusHead := "/PaymentId>\n    <Status>"
  const StatusTail := "</Status>\n</ConfirmResponse>"

  /** The template around the two ids; `status` is the fixed status word. */
  function Segments(status: string): (segs: seq<string>)
    ensures |segs| == 3 && TagDelimited(segs)
  {
    [ "<ConfirmResponse>\n    <TransactionId>",
      Tag("/TransactionId>\n    <PaymentId>"),
      Tag(StatusHead + status + StatusTail) ]
  }

  function Values(data: Entries): (vs: seq<string>)
    ensures |vs| == 2 && AllInert(vs)
  {
    [TransactionId(data), PaymentId(data)]
  }

  /** `getCheckSuccessBody($data)`: TransactionId, PaymentId, then status ACCEPTED. */
  function SuccessBody(data: Entries): (body: string)
    ensures Segments(Accepted)[0] + TransactionId(data) <= body
    ensures EndsWith(body, StatusHead + Accepted + StatusTail)
  {
    FillEndsWith(Segments(Accepted), Values(data));
    assert Segments(Accepted)[2][1..] == StatusHead + Accepted + StatusTail;
    Fill(Segments(Accepted), Values(data))
  }

  /** `getCheckErrorBody($data)`: the same fields in the same order, with status DECLINED. */
  function ErrorBody(data: Entries): (body: string)
    ensures Segments(Declined)[0] + TransactionId(data) <= body
    ensures EndsWith(body, StatusHead + Declined + StatusTail)
  {
    FillEndsWith(Segments(Declined), Values(data));
    assert Segments(Declined)[2][1..] == StatusHead + Declined + StatusTail;
    Fill(Segments(Declined), Values(data))
  }

  /**
   * A rendered confirmation determines both its status and its ids: two
   * bodies are equal only when the status words and the cleaned ids agree.
   */
  lemma {:induction false} BodyDetermines(s: string, t: string, d: Entries, e: Entries)
    requires |s| == |t|
    ensures Fill(Segments(s), Values(d)) == Fill(Segments(t), Values(e)) <==> s == t && Values(d) == Values(e)
  {
    if Fill(Segments(s), Values(d)) == Fill(Segments(t), Values(e)) {
      FillDeterminesValues(Segments(s), Segments(t), Values(d), Values(e));
      assert StatusHead + s + StatusTail == StatusHead + t + StatusTail by {
        assert Tag(StatusHead + s + StatusTail)[1..] == StatusHead + s + StatusTail;
        assert Tag(StatusHead + t + StatusTail)[1..] == StatusHead + t + StatusTail;
      }
      MiddleDetermined(StatusHead, s, t, StatusTail);
    }
  }

  /** A success confirmation is never the same text as an error confirmation. */
  lemma SuccessIsNotError(d: Entries, e: Entries)
    ensures SuccessBody(d) != ErrorBody(e)
  {
    assert Accepted[0] != Declined[0];
    BodyDetermines(Accepted, Declined, d, e);
  }

  /** The success body determines the cleaned ids it carries. */
  lemma SuccessBodyDetermines(d: Entries, e: Entries)
    ensures SuccessBody(d) == SuccessBody(e) <==> TransactionId(d) == TransactionId(e) && PaymentId(d) == PaymentId(e)
  {
    BodyDetermines(Accepted, Accepted, d, e);
    assert Values(d) == Values(e) <==> TransactionId(d) == TransactionId(e) && PaymentId(d) == PaymentId(e);
  }

  /** `success($data)`: the ACCEPTED confirmation, whatever the mode. */
  method Success(r: Response, data: Entries := [])
    modifies r
    ensures r.GetContent() == Some(SuccessBody(data))
  {
    r.content := Some(SuccessBody(data));
  }
}

=== FILE: options.dfy ===
/**
 * The option store of the payment layer: explicit entries first, then the
 * process environment, then the caller's default.
 */
module OptionStore {
  import opened Wrappers
  import opened PhpValues

  /** The process environment (`$_ENV`): every entry is a string. */
  type Env = map<string, string>

  class Options {
    /** Explicitly stored options; an entry may hold null. Names are plain keys (no path splitting). */
    var data: map<string, Value>

    constructor (data: map<string, Value>)
      ensures this.data == data
    {
      this.data := data;
    }

    /**
     * `get($name, $default)`: a stored non-null value wins over everything;
     * without one, the environment entry; without that, the default.
     */
    function Get(name: string, env: Env, default: Value): (r: Value)
      reads this
      ensures name in data && data[name].Some? ==> r == data[name]
      ensures !(name in data && data[name].Some?) && name in env ==> r == Some(env[name])
      ensures !(name in data && data[name].Some?) && name !in env ==> r == default
    {
      if name in data && data[name].Some? then data[name]
      else if name in env then Some(env[name])
      else default
    }

    /** `set($name, $value)`: stores (or overwrites) one entry and touches no other. */
    method Set(name: string, value: Value)
      modifies this
      ensures data == old(data)[name := value]
      ensures value.Some? ==> forall env, d :: Get(name, env, d) == value
    {
      data := data[name := value];
    }
  }

  /** A key stored as null behaves exactly as a store from which the key was removed. */
  lemma NullEntryIsAbsent(o: Options, o': Options, name: string, env: Env, default: Value)
    requires name in o.data && o.data[name] == None
    requires o'.data == o.data - {name}
    ensures o.Get(name, env, default) == o'.Get(name, env, default)
  {
  }
}

=== FILE: payment_url.dfy ===
/**
 * Outbound payment URLs: a gateway address, a fixed list of query
 * parameters, then the custom parameters, every value passed through
 * `rawurlencode`. `Read` is an independent reference reader of such a URL.
 */
module PaymentUrl {
  import opened PhpValues
  import opened RawUrl

  /** One query parameter: its name, written as is, and its raw value. */
  datatype Param = Param(name: string, value: string)

  /** `name=rawurlencode(value)`. */
  function Segment(p: Param): string
  {
    p.name + "=" + Encode(p.value)
  }

  /** `&name=value` for every parameter, in order. */
  function Tail(ps: seq<Param>): string
  {
    if ps == [] then "" else "&" + Segment(ps[0]) + Tail(ps[1..])
  }

  /** `gateway?first&rest...`. */
  function Build(gateway: string, first: Param, rest: seq<Param>): string
  {
    gateway + "?" + Segment(first) + Tail(rest)
  }

  lemma BuildStartsWith(gateway: string, first: Param, rest: seq<Param>)
    ensures gateway + "?" + Segment(first) <= Build(gateway, first, rest)
  {
  }

  /** The custom parameters of a provider, in insertion order, with the provider's name prefix. */
  function Custom(prefix: string, es: Entries): (ps: seq<Param>)
    ensures |ps| == |es|
    ensures forall i :: 0 <= i < |es| ==> ps[i] == Param(prefix + es[i].key, Text(es[i].value))
  {
    if es == [] then [] else [Param(prefix + es[0].key, Text(es[0].value))] + Custom(prefix, es[1..])
  }

  lemma {:induction false} TailAppend(ps: seq<Param>, qs: seq<Param>)
    ensures Tail(ps + qs) == Tail(ps) + Tail(qs)
  {
    if ps != [] {
      assert (ps + qs)[0] == ps[0] && (ps + qs)[1..] == ps[1..] + qs;
      TailAppend(ps[1..], qs);
      calc {
        Tail(ps + qs);
        "&" + Segment(ps[0]) + Tail(ps[1..] + qs);
        "&" + Segment(ps[0]) + (Tail(ps[1..]) + Tail(qs));
        ("&" + Segment(ps[0]) + Tail(ps[1..])) + Tail(qs);
      }
    } else {
      assert ps + qs == qs;
    }
  }
  /** Appending parameters to a built URL is appending their tail. */
  lemma BuildAppend(gateway: string, first: Param, ps: seq<Param>, qs: seq<Param>)
    ensures Build(gateway, first, ps + qs) == Build(gateway, first, ps) + Tail(qs)
  {
    TailAppend(ps, qs);
  }

  /** A URL's parameter list is its fixed parameters followed by the custom ones. */
  lemma FirstAndRest(fixed: seq<Param>, custom: seq<Param>)
    requires |fixed| > 0
    ensures (fixed + custom)[0] == fixed[0] && (fixed + custom)[1..] == fixed[1..] + custom
  {
  }

  /** Custom parameters have plain names when the prefix and every key are plain. */
  lemma CustomPlain(prefix: string, es: Entries)
    requires PlainName(prefix)
    requires forall i :: 0 <= i < |es| ==> PlainName(es[i].key)
    ensures forall i :: 0 <= i < |es| ==> PlainName(Custom(prefix, es)[i].name)
  {
    forall i | 0 <= i < |es|
      ensures PlainName(prefix + es[i].key)
    {
      var n := prefix + es[i].key;
      assert forall j :: 0 <= j < |n| ==> n[j] == (if j < |prefix| then prefix[j] else es[i].key[j - |prefix|]);
    }
  }

  lemma CustomPrefix(prefix: string, es: Entries, i: nat)
    requires i < |es|
    ensures Custom(prefix, es[..i + 1]) == Custom(prefix, es[..i]) + [Param(prefix + es[i].key, Text(es[i].value))]
  {
    assert |Custom(prefix, es[..i + 1])| == i + 1;
  }

  /**
   * The `foreach` over the custom parameters: appends `&<prefix><key>=<value>`
   * for each entry, in insertion order, the key written as is and the value
   * percent-encoded.
   */
  method AppendCustom(gateway: string, prefix: string, es: Entries) returns (url: string)
    ensures url == gateway + Tail(Custom(prefix, es))
  {
    url := gateway;
    var i := 0;
    while i < |es|
      invariant 0 <= i <= |es|
      invariant url == gateway + Tail(Custom(prefix, es[..i]))
    {
      var p := Param(prefix + es[i].key, Text(es[i].value));
      CustomPrefix(prefix, es, i);
      TailAppend(Custom(prefix, es[..i]), [p]);
      assert Tail([p]) == "&" + Segment(p);
      url := url + ("&" + Segment(p));
      i := i + 1;
    }
    assert es[..|es|] == es;
  }


  // ---------------------------------------------------------------------------
  // Reference reader
  // ---------------------------------------------------------------------------

  /** The text before the first `c` and the text after it (all of `s` and "" when there is none). */
  function Cut(s: string, c: char): (string, string)
  {
    if s == [] then ("", "")
    else if s[0] == c then ("", s[1..])
    else var r := Cut(s[1..], c); ([s[0]] + r.0, r.1)
  }

  /** `explode(c, s)`. */
  function SplitOn(s: string, c: char): (r: seq<string>)
    ensures |r| > 0
  {
    if s == [] then [""]
    else
      var rest := SplitOn(s[1..], c);
      if s[0] == c then [""] + rest else [[s[0]] + rest[0]] + rest[1..]
  }

  /** What a reader takes from `name=value`: the name and the decoded bytes of the value. */
  function ReadPair(seg: string): (string, seq<Byte>)
  {
    var (n, v) := Cut(seg, '=');
    (n, Decode(v))
  }

  function ReadPairs(segs: seq<string>): (r: seq<(string, seq<Byte>)>)
    ensures |r| == |segs|
  {
    if segs == [] then [] else [ReadPair(segs[0])] + ReadPairs(segs[1..])
  }

  /** The query of a URL, read as name/value pairs in order. */
  function Read(url: string): seq<(string, seq<Byte>)>
  {
    ReadPairs(SplitOn(Cut(url, '?').1, '&'))
  }

  /** The pairs a URL built from `ps` is meant to carry. */
  function Carried(ps: seq<Param>): (r: seq<(string, seq<Byte>)>)
    ensures |r| == |ps|
  {
    if ps == [] then [] else [(ps[0].name, Utf8(ps[0].value))] + Carried(ps[1..])
  }

  /** A parameter name the reader can delimit. */
  predicate PlainName(n: string)
  {
    '&' !in n && '=' !in n
  }

  lemma {:induction false} CutAtFirst(a: string, b: string, c: char)
    requires c !in a
    ensures Cut(a + [c] + b, c) == (a, b)
  {
    if a != [] {
      var s := a + [c] + b;
      assert s[0] == a[0] && s[1..] == a[1..] + [c] + b;
      CutAtFirst(a[1..], b, c);
      assert [a[0]] + a[1..] == a;
    } else {
      assert (a + [c] + b)[1..] == b;
    }
  }

  lemma {:induction false} SplitOnAtFirst(a: string, b: string, c: char)
    requires c !in a
    ensures SplitOn(a + [c] + b, c) == [a] + SplitOn(b, c)
  {
    if a != [] {
      var s := a + [c] + b;
      assert s[0] == a[0] && s[1..] == a[1..] + [c] + b;
      SplitOnAtFirst(a[1..], b, c);
      assert [a[0]] + a[1..] == a;
    } else {
      assert (a + [c] + b)[1..] == b;
    }
  }

  lemma {:induction false} SplitOnWithout(a: string, c: char)
    requires c !in a
    ensures SplitOn(a, c) == [a]
  {
    if a != [] {
      SplitOnWithout(a[1..], c);
      assert [a[0]] + a[1..] == a;
    }
  }

  lemma ReadSegment(p: Param)
    requires PlainName(p.name)
    ensures '&' !in Segment(p)
    ensures ReadPair(Segment(p)) == (p.name, Utf8(p.value))
  {
    var e := Encode(p.value);
    assert forall i :: 0 <= i < |e| ==> e[i] != '&' && e[i] != '=';
    assert Segment(p) == p.name + ['='] + e;
    CutAtFirst(p.name, e, '=');
    DecodeEncode(p.value);
  }

  function Segments(ps: seq<Param>): (r: seq<string>)
    ensures |r| == |ps|
  {
    if ps == [] then [] else [Segment(ps[0])] + Segments(ps[1..])
  }

  lemma {:induction false} SplitTail(seg: string, ps: seq<Param>)
    requires '&' !in seg
    requires forall i :: 0 <= i < |ps| ==> PlainName(ps[i].name)
    ensures SplitOn(seg + Tail(ps), '&') == [seg] + Segments(ps)
    decreases |ps|
  {
    if ps == [] {
      assert seg + Tail(ps) == seg;
      SplitOnWithout(seg, '&');
    } else {
      var rest := Segment(ps[0]) + Tail(ps[1..]);
      ReadSegment(ps[0]);
      assert forall i :: 0 <= i < |ps[1..]| ==> PlainName(ps[1..][i].name) by {
        forall i | 0 <= i < |ps[1..]| ensures PlainName(ps[1..][i].name) { assert ps[1..][i] == ps[i + 1]; }
      }
      SplitTail(Segment(ps[0]), ps[1..]);
      assert Tail(ps) == "&" + rest;
      assert seg + Tail(ps) == seg + ['&'] + rest;
      SplitOnAtFirst(seg, rest, '&');
      assert Segments(ps) == [Segment(ps[0])] + Segments(ps[1..]);
    }
  }

  lemma {:induction false} ReadSegments(ps: seq<Param>)
    requires forall i :: 0 <= i < |ps| ==> PlainName(ps[i].name)
    ensures ReadPairs(Segments(ps)) == Carried(ps)
  {
    if ps != [] {
      ReadSegment(ps[0]);
      ReadSegments(ps[1..]);
    }
  }

  /**
   * A built URL reads back as exactly the parameters it was built from, in
   * the same order, each value decoding to the bytes of the raw value.
   */
  lemma {:induction false} ReadBuild(gateway: string, first: Param, rest: seq<Param>)
    requires '?' !in gateway
    requires PlainName(first.name)
    requires forall i :: 0 <= i < |rest| ==> PlainName(rest[i].name)
    ensures Read(Build(gateway, first, rest)) == Carried([first] + rest)
  {
    var q := Segment(first) + Tail(rest);
    assert Build(gateway, first, rest) == gateway + ['?'] + q;
    CutAtFirst(gateway, q, '?');
    ReadSegment(first);
    SplitTail(Segment(first), rest);
    ReadSegments([first] + rest);
  }
}

=== FILE: php_values.dfy ===
/**
 * The small part of PHP's value semantics the payment layer relies on:
 * `null`, `isset`/`empty`, ordered arrays with string keys, `intval`
 * and the decimal form of integers.
 */
module PhpValues {
  import opened Wrappers

  /** A PHP scalar as the provider layer sees it: `null` or its string form. */
  type Value = Option<string>

  /** The string PHP produces when a value is concatenated or escaped (`null` gives ""). */
  function Text(v: Value): string
  {
    if v.Some? then v.value else ""
  }

  /** PHP `empty` (and `!$x`) on a string-valued variable: null, "" and "0" are empty. */
  predicate Empty(v: Value)
  {
    v == None || v == Some("") || v == Some("0")
  }

  // ---------------------------------------------------------------------------
  // Ordered arrays
  // ---------------------------------------------------------------------------

  /** One key/value pair of a PHP array with string keys. */
  datatype Entry = Entry(key: string, value: Value)

  /** A PHP array with string keys: iteration order is insertion order. */
  type Entries = seq<Entry>

  function Keys(es: Entries): (ks: seq<string>)
    ensures |ks| == |es|
    ensures forall i :: 0 <= i < |es| ==> ks[i] == es[i].key
  {
    if es == [] then [] else [es[0].key] + Keys(es[1..])
  }

  /** Every key occurs once, as in any PHP array. */
  predicate DistinctKeys(es: Entries)
  {
    forall i, j :: 0 <= i < j < |es| ==> es[i].key != es[j].key
  }

  /** `$a[$k]`: the value stored under `k`, or null when there is none. */
  function Lookup(es: Entries, k: string): Value
  {
    if es == [] then None
    else if es[0].key == k then es[0].value
    else Lookup(es[1..], k)
  }

  /**
   * `$a[$k] = $v`: an existing key keeps its position and gets the new value;
   * a new key is appended at the end.
   */
  function Put(es: Entries, k: string, v: Value): (r: Entries)
    ensures Lookup(r, k) == v
    ensures forall j :: j != k ==> Lookup(r, j) == Lookup(es, j)
    ensures Keys(r) == if k in Keys(es) then Keys(es) else Keys(es) + [k]
    ensures DistinctKeys(es) ==> DistinctKeys(r)
  {
    if es == [] then [Entry(k, v)]
    else if es[0].key == k then
      var r := [Entry(k, v)] + es[1..];
      assert r[1..] == es[1..];
      r
    else
      var rest := Put(es[1..], k, v);
      var r := [es[0]] + rest;
      assert r[1..] == rest;
      assert Keys(r) == [es[0].key] + Keys(rest) && Keys(es) == [es[0].key] + Keys(es[1..]);
      r
  }

  /** `$data[$name]` as a string: a missing key or null reads as "". */
  function Field(data: Entries, name: string): string
  {
    Text(Lookup(data, name))
  }

  // ---------------------------------------------------------------------------
  // Integers and their decimal form
  // ---------------------------------------------------------------------------

  predicate IsDigit(c: char)
  {
    '0' <= c <= '9'
  }

  predicate AllDigits(s: string)
  {
    forall i :: 0 <= i < |s| ==> IsDigit(s[i])
  }

  function DigitChar(d: nat): (c: char)
    requires d < 10
    ensures IsDigit(c)
  {
    ('0' as int + d) as char
  }

  /** Decimal digits of a natural number, most significant first, no leading zero. */
  function ShowNat(n: nat): (s: string)
    ensures |s| > 0 && AllDigits(s)
    decreases n
  {
    if n < 10 then [DigitChar(n)] else ShowNat(n / 10) + [DigitChar(n % 10)]
  }

  /** PHP's string form of an integer (`(string)$n`, `"{$n}"`). */
  function Show(n: int): (s: string)
    ensures |s| > 0
    ensures forall i :: 0 <= i < |s| ==> IsDigit(s[i]) || s[i] == '-'
  {
    if n < 0 then "-" + ShowNat(-n) else ShowNat(n)
  }

  /** Value of a string of decimal digits. */
  function DigitsValue(s: string): nat
    requires AllDigits(s)
  {
    if s == [] then 0
    else 10 * DigitsValue(s[..|s| - 1]) + (s[|s| - 1] as int - '0' as int)
  }

  /** The longest prefix of `s` made of decimal digits. */
  function LeadingDigits(s: string): (d: string)
    ensures AllDigits(d) && d <= s
    ensures |d| < |s| ==> !IsDigit(s[|d|])
    ensures AllDigits(s) ==> d == s
  {
    if s == [] || !IsDigit(s[0]) then [] else [s[0]] + LeadingDigits(s[1..])
  }

  predicate IsSpace(c: char)
  {
    c == ' ' || c == '\t' || c == '\n' || c == '\r' || c == '\U{B}' || c == '\U{C}'
  }

  function SkipSpaces(s: string): (t: string)
    ensures |t| <= |s| && t == s[|s| - |t|..]
    ensures t == [] || !IsSpace(t[0])
  {
    if s != [] && IsSpace(s[0]) then SkipSpaces(s[1..]) else s
  }

  /**
   * PHP `intval` on a string in decimal notation: leading white space, an
   * optional sign, then the longest run of digits; no digits gives 0.
   */
  function IntVal(s: string): (n: int)
    ensures AllDigits(s) ==> n == DigitsValue(s)
    ensures |s| > 0 && s[0] == '-' && AllDigits(s[1..]) ==> n == -(DigitsValue(s[1..]) as int)
  {
    var t := SkipSpaces(s);
    if t != [] && t[0] == '-' then -(DigitsValue(LeadingDigits(t[1..])) as int)
    else if t != [] && t[0] == '+' then DigitsValue(LeadingDigits(t[1..]))
    else DigitsValue(LeadingDigits(t))
  }

  /**
   * `intval` independently of its definition: leading white space is skipped,
   * an optional sign is read, then the run of digits up to the first
   * non-digit gives the value.
   */
  lemma IntValReads(w: string, d: string, rest: string)
    requires forall i :: 0 <= i < |w| ==> IsSpace(w[i])
    requires AllDigits(d)
    requires rest == [] || !IsDigit(rest[0])
    ensures d != [] ==> IntVal(w + d + rest) == DigitsValue(d)
    ensures IntVal(w + "+" + d + rest) == DigitsValue(d)
    ensures IntVal(w + "-" + d + rest) == -(DigitsValue(d) as int)
  {
    IntValSignAt(w + "+" + d + rest, w, "+", d, rest);
    IntValSignAt(w + "-" + d + rest, w, "-", d, rest);
    if d != [] {
      IntValDigitsAt(w + d + rest, w, d, rest);
    }
  }

  /** The signed case of `IntValReads`, for a string `s` given by its parts. */
  lemma IntValSignAt(s: string, w: string, sign: string, d: string, rest: string)
    requires forall i :: 0 <= i < |w| ==> IsSpace(w[i])
    requires sign == "+" || sign == "-"
    requires AllDigits(d)
    requires rest == [] || !IsDigit(rest[0])
    requires s == w + sign + d + rest
    ensures IntVal(s) == if sign == "-" then -(DigitsValue(d) as int) else DigitsValue(d)
  {
    var t := sign + d + rest;
    assert t[0] == sign[0] && t[1..] == d + rest;
    assert s == w + t;
    SkipSpacesPrefix(w, t);
    LeadingDigitsPrefix(d, rest);
    IntValAfterSign(s, t, d);
  }

  /** `intval` once the white space is known to end at a sign followed by the digits `d`. */
  lemma IntValAfterSign(s: string, t: string, d: string)
    requires SkipSpaces(s) == t
    requires |t| > 0 && (t[0] == '+' || t[0] == '-')
    requires LeadingDigits(t[1..]) == d
    ensures IntVal(s) == if t[0] == '-' then -(DigitsValue(d) as int) else DigitsValue(d)
  {
  }

  /** The unsigned case of `IntValReads`, for a string `s` given by its parts. */
  lemma IntValDigitsAt(s: string, w: string, d: string, rest: string)
    requires forall i :: 0 <= i < |w| ==> IsSpace(w[i])
    requires d != [] && AllDigits(d)
    requires rest == [] || !IsDigit(rest[0])
    requires s == w + d + rest
    ensures IntVal(s) == DigitsValue(d)
  {
    var t := d + rest;
    assert t[0] == d[0];
    assert s == w + t;
    SkipSpacesPrefix(w, t);
    LeadingDigitsPrefix(d, rest);
    IntValAfterDigit(s, t, d);
  }

  /** `intval` once the white space is known to end at the digits `d`, with no sign. */
  lemma IntValAfterDigit(s: string, t: string, d: string)
    requires SkipSpaces(s) == t
    requires |t| > 0 && IsDigit(t[0])
    requires LeadingDigits(t) == d
    ensures IntVal(s) == DigitsValue(d)
  {
  }

  /** White space in front of text that does not start with white space is skipped entirely. */
  lemma {:induction false} SkipSpacesPrefix(w: string, x: string)
    requires forall i :: 0 <= i < |w| ==> IsSpace(w[i])
    requires x == [] || !IsSpace(x[0])
    ensures SkipSpaces(w + x) == x
  {
    if w != [] {
      assert (w + x)[0] == w[0] && (w + x)[1..] == w[1..] + x;
      SkipSpacesPrefix(w[1..], x);
    } else {
      assert w + x == x;
    }
  }

  /** The digit run ends where the first non-digit begins. */
  lemma {:induction false} LeadingDigitsPrefix(d: string, rest: string)
    requires AllDigits(d)
    requires rest == [] || !IsDigit(rest[0])
    ensures LeadingDigits(d + rest) == d
  {
    if d != [] {
      assert (d + rest)[0] == d[0] && (d + rest)[1..] == d[1..] + rest;
      LeadingDigitsPrefix(d[1..], rest);
      assert d == [d[0]] + d[1..];
    } else {
      assert d + rest == rest;
    }
  }

  lemma {:induction false} DigitsValueShowNat(n: nat)
    ensures DigitsValue(ShowNat(n)) == n
    decreases n
  {
    var s := ShowNat(n);
    if n >= 10 {
      DigitsValueShowNat(n / 10);
      assert s[..|s| - 1] == ShowNat(n / 10);
    }
  }

  /** `intval` reads back the decimal form of every integer. */
  lemma IntValShow(n: int)
    ensures IntVal(Show(n)) == n
  {
    var s := ShowNat(if n < 0 then -n else n);
    DigitsValueShowNat(if n < 0 then -n else n);
    if n < 0 {
      assert Show(n) == "-" + s;
      assert ("-" + s)[1..] == s;
    }
  }

  /** The decimal form is unambiguous: different integers print differently. */
  lemma ShowInjective(m: int, n: int)
    requires Show(m) == Show(n)
    ensures m == n
  {
    IntValShow(m);
    IntValShow(n);
  }
}

=== FILE: raw_url.dfy ===
/**
 * `rawurlencode` / `rawurldecode`: percent-encoding of section 2.1 of
 * RFC 3986 over the UTF-8 bytes of a string, leaving only the unreserved
 * characters of section 2.3 (ALPHA, DIGIT, "-", ".", "_", "~") as they are.
 */
module RawUrl {

  type Byte = b: int | 0 <= b < 256

  /** UTF-8 encoding of one code point. */
  function Utf8Char(c: char): (bs: seq<Byte>)
    ensures 1 <= |bs| <= 4
    ensures c as int < 0x80 <==> bs == [c as int]
    ensures |bs| == SequenceLength(bs[0])
  {
    var n := c as int;
    if n < 0x80 then [n]
    else if n < 0x800 then [0xC0 + n / 0x40, 0x80 + n % 0x40]
    else if n < 0x10000 then [0xE0 + n / 0x1000, 0x80 + (n / 0x40) % 0x40, 0x80 + n % 0x40]
    else [0xF0 + n / 0x40000, 0x80 + (n / 0x1000) % 0x40, 0x80 + (n / 0x40) % 0x40, 0x80 + n % 0x40]
  }

  /** The length of a UTF-8 sequence, read off its lead byte. */
  function SequenceLength(lead: Byte): nat
  {
    if lead < 0x80 then 1 else if lead < 0xE0 then 2 else if lead < 0xF0 then 3 else 4
  }

  /** The code point a well-formed UTF-8 sequence of one to four bytes stands for. */
  function CodePoint(bs: seq<Byte>): int
    requires 1 <= |bs| <= 4
  {
    var b: seq<int> := bs;
    if |b| == 1 then b[0]
    else if |b| == 2 then (b[0] - 0xC0) * 0x40 + (b[1] - 0x80)
    else if |b| == 3 then (b[0] - 0xE0) * 0x1000 + (b[1] - 0x80) * 0x40 + (b[2] - 0x80)
    else (b[0] - 0xF0) * 0x40000 + (b[1] - 0x80) * 0x1000 + (b[2] - 0x80) * 0x40 + (b[3] - 0x80)
  }

  /** Decoding the bytes of one code point gives the code point back. */
  lemma CodePointUtf8Char(c: char)
    ensures CodePoint(Utf8Char(c)) == c as int
  {
    var n := c as int;
    if n >= 0x10000 {
      assert n == (n / 0x40000) * 0x40000 + ((n / 0x1000) % 0x40) * 0x1000 + ((n / 0x40) % 0x40) * 0x40 + n % 0x40;
    } else if n >= 0x800 {
      assert n == (n / 0x1000) * 0x1000 + ((n / 0x40) % 0x40) * 0x40 + n % 0x40;
    }
  }

  /** Distinct code points have distinct UTF-8 sequences. */
  lemma Utf8CharInjective(c: char, d: char)
    requires Utf8Char(c) == Utf8Char(d)
    ensures c == d
  {
    CodePointUtf8Char(c);
    CodePointUtf8Char(d);
  }

  /** The bytes PHP holds for a string. */
  function Utf8(s: string): seq<Byte>
  {
    if s == [] then [] else Utf8Char(s[0]) + Utf8(s[1..])
  }

  /** The unreserved characters of section 2.3 of RFC 3986. */
  predicate Unreserved(c: char)
  {
    ('A' <= c <= 'Z') || ('a' <= c <= 'z') || ('0' <= c <= '9') || c == '-' || c == '.' || c == '_' || c == '~'
  }

  /** Upper-case hexadecimal digit, as `rawurlencode` writes them. */
  function HexDigit(d: nat): (c: char)
    requires d < 16
    ensures ('0' <= c <= '9') || ('A' <= c <= 'F')
  {
    if d < 10 then ('0' as int + d) as char else ('A' as int + d - 10) as char
  }

  /** Hexadecimal digit in either case, as `rawurldecode` accepts them. */
  predicate IsHex(c: char)
  {
    ('0' <= c <= '9') || ('A' <= c <= 'F') || ('a' <= c <= 'f')
  }

  function HexValue(c: char): (d: nat)
    requires IsHex(c)
    ensures d < 16
  {
    if '0' <= c <= '9' then c as int - '0' as int
    else if 'A' <= c <= 'F' then c as int - 'A' as int + 10
    else c as int - 'a' as int + 10
  }

  /** One byte: kept when it is an unreserved character, `%XX` otherwise. */
  function EncodeByte(b: Byte): string
  {
    if b < 0x80 && Unreserved(b as char) then [b as char]
    else ['%', HexDigit(b / 16), HexDigit(b % 16)]
  }

  function EncodeBytes(bs: seq<Byte>): (u: string)
    ensures forall i :: 0 <= i < |u| ==> Unreserved(u[i]) || u[i] == '%'
  {
    if bs == [] then [] else EncodeByte(bs[0]) + EncodeBytes(bs[1..])
  }

  /** `rawurlencode($s)`. */
  function Encode(s: string): (u: string)
    ensures forall i :: 0 <= i < |u| ==> Unreserved(u[i]) || u[i] == '%'
  {
    EncodeBytes(Utf8(s))
  }

  /** Text made only of unreserved ASCII characters is not changed by encoding. */
  lemma {:induction false} EncodeKeepsUnreserved(s: string)
    requires forall i :: 0 <= i < |s| ==> s[i] as int < 0x80 && Unreserved(s[i])
    ensures Encode(s) == s
  {
    if s != [] {
      var bs := Utf8(s);
      assert bs == [s[0] as int] + Utf8(s[1..]);
      assert bs[0] == s[0] as int && bs[1..] == Utf8(s[1..]);
      assert EncodeByte(s[0] as int) == [s[0]];
      EncodeKeepsUnreserved(s[1..]);
      assert s == [s[0]] + s[1..];
    }
  }

  /**
   * `rawurldecode($s)`, giving bytes: `%` followed by two hexadecimal digits
   * becomes that byte, every other character stands for its own UTF-8 bytes
   * (`+` is not turned into a space). Reading the string character by character
   * is the same as reading its bytes, because `%` and the hexadecimal digits are
   * ASCII and the bytes of a multi-byte character are all 0x80 or above.
   */
  function Decode(s: string): (bs: seq<Byte>)
    ensures (forall i :: 0 <= i < |s| ==> s[i] != '%') ==> bs == Utf8(s)
  {
    if s == [] then []
    else if s[0] == '%' && |s| >= 3 && IsHex(s[1]) && IsHex(s[2]) then
      [16 * HexValue(s[1]) + HexValue(s[2])] + Decode(s[3..])
    else Utf8Char(s[0]) + Decode(s[1..])
  }

  /** The shape of every `rawurlencode` output: unreserved characters and `%XX` with upper-case hex. */
  predicate WellEncoded(u: string)
    decreases |u|
  {
    u == []
    || (Unreserved(u[0]) && WellEncoded(u[1..]))
    || (|u| >= 3 && u[0] == '%' && IsUpperHex(u[1]) && IsUpperHex(u[2]) && WellEncoded(u[3..]))
  }

  predicate IsUpperHex(c: char)
  {
    ('0' <= c <= '9') || ('A' <= c <= 'F')
  }

  lemma {:induction false} EncodeBytesWellEncoded(bs: seq<Byte>)
    ensures WellEncoded(EncodeBytes(bs))
  {
    if bs != [] {
      EncodeBytesWellEncoded(bs[1..]);
      var head, tail := EncodeByte(bs[0]), EncodeBytes(bs[1..]);
      assert (head + tail)[|head|..] == tail;
    }
  }

  /** Every `rawurlencode` output consists of unreserved characters and `%XX` with upper-case hex. */
  lemma EncodeWellEncoded(s: string)
    ensures WellEncoded(Encode(s))
  {
    EncodeBytesWellEncoded(Utf8(s));
  }

  lemma HexRoundTrip(d: nat)
    requires d < 16
    ensures IsHex(HexDigit(d)) && HexValue(HexDigit(d)) == d
  {
  }

  lemma {:induction false} DecodeEncodeBytes(bs: seq<Byte>)
    ensures Decode(EncodeBytes(bs)) == bs
  {
    if bs != [] {
      var b := bs[0];
      var head, tail := EncodeByte(b), EncodeBytes(bs[1..]);
      DecodeEncodeBytes(bs[1..]);
      if b < 0x80 && Unreserved(b as char) {
        DecodePlainStep(b as char, tail);
      } else {
        HexRoundTrip(b / 16);
        HexRoundTrip(b % 16);
        DecodeHexStep(HexDigit(b / 16), HexDigit(b % 16), tail);
      }
      assert bs == [b] + bs[1..];
    }
  }

  lemma DecodePlainStep(c: char, tail: string)
    requires c != '%'
    ensures Decode([c] + tail) == Utf8Char(c) + Decode(tail)
  {
    assert ([c] + tail)[1..] == tail;
  }

  lemma DecodeHexStep(x: char, y: char, tail: string)
    requires IsHex(x) && IsHex(y)
    ensures Decode(['%', x, y] + tail) == [16 * HexValue(x) + HexValue(y)] + Decode(tail)
  {
    assert (['%', x, y] + tail)[3..] == tail;
  }

  /** Decoding a `rawurlencode` output once gives back exactly the bytes of the input. */
  lemma DecodeEncode(s: string)
    ensures Decode(Encode(s)) == Utf8(s)
  {
    DecodeEncodeBytes(Utf8(s));
  }

  /** Only the empty string has no bytes. */
  lemma Utf8Empty(s: string)
    ensures Utf8(s) == [] <==> s == []
  {
    if s != [] {
      assert |Utf8(s)| >= |Utf8Char(s[0])| > 0;
    }
  }

  /**
   * Distinct strings have distinct UTF-8 bytes: the lead byte fixes the
   * length of the first sequence, which fixes the first character.
   */
  lemma {:induction false} Utf8Injective(s: string, t: string)
    requires Utf8(s) == Utf8(t)
    ensures s == t
  {
    Utf8Empty(s);
    Utf8Empty(t);
    if s != [] {
      var a, b := Utf8Char(s[0]), Utf8Char(t[0]);
      assert Utf8(s) == a + Utf8(s[1..]) && Utf8(t) == b + Utf8(t[1..]);
      assert a[0] == Utf8(s)[0] == b[0];
      assert a == Utf8(s)[..|a|] == b;
      Utf8CharInjective(s[0], t[0]);
      assert Utf8(s[1..]) == Utf8(s)[|a|..] == Utf8(t[1..]);
      Utf8Injective(s[1..], t[1..]);
      assert s == [s[0]] + s[1..] && t == [t[0]] + t[1..];
    }
  }

  /** Different strings never encode to the same text. */
  lemma EncodeInjective(s: string, t: string)
    requires Encode(s) == Encode(t)
    ensures s == t
  {
    DecodeEncode(s);
    DecodeEncode(t);
    Utf8Injective(s, t);
  }
}

=== FILE: signature.dfy ===
/**
 * Callback-signature canonicalisation shared by the card providers: the
 * request URL is cut at its first `&signature=` (PHP
 * `preg_replace('#&signature=.*$#', '', $url)`) and percent-decoded once
 * (`rawurldecode`); the bytes obtained are what the bank signed. The
 * public-key check itself is an oracle that returns an integer.
 */
module Signature {
  import opened Wrappers
  import opened PhpValues
  import opened RawUrl

  const Marker := "&signature="

  predicate MarkerAt(s: string, i: nat)
  {
    i + |Marker| <= |s| && s[i..i + |Marker|] == Marker
  }

  /**
   * `.*$` matches the rest of `t`: `.` stops at a newline and `$` holds at
   * the end or just before a final newline, so a newline may only be last.
   */
  predicate RestMatches(t: string)
  {
    forall k :: 0 <= k < |t| - 1 ==> t[k] != '\n'
  }

  /** `&signature=.*$` matches starting at position `i`. */
  predicate MatchAt(s: string, i: nat)
  {
    MarkerAt(s, i) && RestMatches(s[i + |Marker|..])
  }

  /** The final newline that `$` leaves in place, if `s` has one. */
  function FinalNewline(s: string): string
  {
    if |s| > 0 && s[|s| - 1] == '\n' then "\n" else ""
  }

  /** The replacement: the leftmost match and everything after it, bar a final newline, is deleted. */
  function CutSignature(s: string): (r: string)
    ensures |r| <= |s|
  {
    if |s| < |Marker| then s
    else if MatchAt(s, 0) then FinalNewline(s)
    else [s[0]] + CutSignature(s[1..])
  }

  lemma {:induction false} MatchAtShift(s: string, i: nat)
    requires 0 < |s| && i < |s|
    ensures MatchAt(s, i + 1) <==> MatchAt(s[1..], i)
  {
    if i + 1 + |Marker| <= |s| {
      assert s[i + 1..i + 1 + |Marker|] == s[1..][i..i + |Marker|];
      assert s[i + 1 + |Marker|..] == s[1..][i + |Marker|..];
    }
  }

  /** With a leftmost match at `i`, the result is the text before `i` plus any final newline. */
  lemma {:induction false} CutAtLeftmostMatch(s: string, i: nat)
    requires MatchAt(s, i)
    requires forall j: nat :: j < i ==> !MatchAt(s, j)
    ensures CutSignature(s) == s[..i] + FinalNewline(s)
    decreases i
  {
    if i > 0 {
      assert !MatchAt(s, 0);
      forall j: nat | j < i - 1
        ensures !MatchAt(s[1..], j)
      {
        MatchAtShift(s, j);
      }
      MatchAtShift(s, i - 1);
      CutAtLeftmostMatch(s[1..], i - 1);
      assert FinalNewline(s[1..]) == FinalNewline(s);
      assert [s[0]] + s[1..][..i - 1] == s[..i];
    }
  }

  /** Without any match, the URL is left as it is. */
  lemma {:induction false} CutWithoutMatch(s: string)
    requires forall j: nat :: !MatchAt(s, j)
    ensures CutSignature(s) == s
    decreases |s|
  {
    if |s| >= |Marker| {
      assert !MatchAt(s, 0);
      forall j: nat
        ensures !MatchAt(s[1..], j)
      {
        if j < |s| { MatchAtShift(s, j); }
      }
      CutWithoutMatch(s[1..]);
      assert [s[0]] + s[1..] == s;
    }
  }

  /** The bytes the bank signed: the cut URL, percent-decoded once. */
  function SignedString(url: string): seq<Byte>
  {
    Decode(CutSignature(url))
  }

  /**
   * For a single-line URL `p + "&signature=" + t` in which `p` holds the
   * first marker, the signed bytes are the decoding of `p`, whatever `t` is.
   */
  lemma {:induction false} SignedPrefix(p: string, t: string)
    requires forall j: nat :: j < |p| ==> !MarkerAt(p + Marker + t, j)
    requires forall k :: 0 <= k < |t| ==> t[k] != '\n'
    ensures SignedString(p + Marker + t) == Decode(p)
  {
    var s := p + Marker + t;
    assert MarkerAt(s, |p|) by {
      assert s[|p|..|p| + |Marker|] == Marker;
    }
    assert RestMatches(s[|p| + |Marker|..]) by {
      assert s[|p| + |Marker|..] == t;
    }
    assert forall j: nat :: j < |p| ==> !MatchAt(s, j);
    CutAtLeftmostMatch(s, |p|);
    assert FinalNewline(s) == "" by {
      if |t| > 0 { assert s[|s| - 1] == t[|t| - 1]; }
      else { assert s[|s| - 1] == Marker[|Marker| - 1]; }
    }
    assert s[..|p|] == p;
    assert CutSignature(s) == p;
  }

  /** The signed bytes do not depend on anything after the first marker. */
  lemma {:induction false} SignedIgnoresTail(p: string, t: string, t': string)
    requires forall j: nat :: j < |p| ==> !MarkerAt(p + Marker + t, j) && !MarkerAt(p + Marker + t', j)
    requires forall k :: 0 <= k < |t| ==> t[k] != '\n'
    requires forall k :: 0 <= k < |t'| ==> t'[k] != '\n'
    ensures SignedString(p + Marker + t) == SignedString(p + Marker + t')
  {
    SignedPrefix(p, t);
    SignedPrefix(p, t');
  }

  /** How a signature check ends. */
  datatype Verdict = Accepted | Rejected(reason: string)

  const MissingReason := "Signature is missing!"
  const InvalidReason := "Signature is invalid!"

  /**
   * `checkSignature`: a falsy `signature` request field is rejected as
   * missing; otherwise the oracle gets the signed bytes and the signature,
   * and only a result of exactly 1 is accepted.
   */
  function Check(signature: Value, url: string, verify: (seq<Byte>, string) -> int): (v: Verdict)
    ensures v == Accepted <==> !Empty(signature) && verify(SignedString(url), signature.value) == 1
    ensures Empty(signature) ==> v == Rejected(MissingReason)
    ensures !Empty(signature) && verify(SignedString(url), signature.value) != 1 ==> v == Rejected(InvalidReason)
  {
    if Empty(signature) then Rejected(MissingReason)
    else if verify(SignedString(url), signature.value) != 1 then Rejected(InvalidReason)
    else Accepted
  }
}

=== FILE: tbcpay_provider.dfy ===
/**
 * The TBC Pay terminal provider: the reply to the network's check and
 * payment callbacks.
 */
module TbcpayProvider {
  import opened Wrappers
  import opened PhpValues
  import opened OptionStore
  import opened XmlResponse
  import opened AbstractProvider
  import TbcpayXml

  const DefaultMode := "check"
  const NoExtraData := "extra data not defined"
  const DefaultErrorCode := "1"

  /** A TBC Pay provider starts in check mode with no custom parameters. */
  method New(options: Options, env: Env, request: map<string, string>, requestUrl: string) returns (p: Provider)
    ensures fresh(p) && p.Valid()
    ensures p.options == options && p.env == env && p.request == request && p.requestUrl == requestUrl
    ensures p.GetMode() == DefaultMode && p.params == []
  {
    p := new Provider(options, env, request, requestUrl, DefaultMode);
  }

  /**
   * The outcome of `sendSuccessResponse($data)`: in check mode empty data
   * fails and nothing is rendered; otherwise the success body is sent.
   */
  function SuccessOutcome(mode: string, data: Entries): (exit: Exit)
    ensures exit.Failed? <==> mode == DefaultMode && data == []
    ensures exit.Failed? ==> exit.message == NoExtraData
    ensures !exit.Failed? ==> exit == Sent(Some(TbcpayXml.SuccessBody(data)))
  {
    if mode == DefaultMode && data == [] then Failed(NoExtraData)
    else Sent(Some(TbcpayXml.SuccessBody(data)))
  }

  /** `sendSuccessResponse($data)`. */
  method SendSuccessResponse(p: Provider, data: Entries := []) returns (exit: Exit)
    ensures exit == SuccessOutcome(p.mode, data)
  {
    var r := new Response(p.mode);
    if p.mode == DefaultMode {
      if data == [] {
        return Failed(NoExtraData);
      }
    }
    TbcpayXml.Success(r, data);
    exit := Sent(r.GetContent());
  }

  /** Outside check mode even empty data is answered, with the plain success body. */
  lemma EmptyDataOutsideCheck(mode: string)
    requires mode != DefaultMode
    ensures SuccessOutcome(mode, []) == Sent(Some(TbcpayXml.PlainSuccessBody))
  {
    TbcpayXml.SuccessWithoutInfo([]);
  }

  /** A sent check-mode reply always lists the extra data inside `<info>`. */
  lemma CheckReplyHasInfo(data: Entries)
    requires SuccessOutcome(DefaultMode, data).Sent?
    ensures SuccessOutcome(DefaultMode, data).body
            == Some(TbcpayXml.SuccessHead + TbcpayXml.InfoOpen + TbcpayXml.Extras(data) + TbcpayXml.InfoClose)
  {
    TbcpayXml.SuccessWithInfo(data);
  }

  /** `sendErrorResponse($code, $error)`: code and description are passed to the error body unchanged. */
  method SendErrorResponse(p: Provider, code: string := DefaultErrorCode, error: string := DefaultErrorDesc) returns (exit: Exit)
    ensures exit == Sent(Some(TbcpayXml.ErrorBody(code, error)))
  {
    var r := new Response(p.mode);
    TbcpayXml.Error(r, code, error);
    exit := Sent(r.GetContent());
  }
}

=== FILE: tbcpay_xml.dfy ===
/**
 * The TBC Pay terminal network's XML answers: a success `response` with
 * result 0 that lists the extra data as `<extra name="k">v</extra>` lines
 * inside `<info>` (left out when there is none), and an error `response`
 * carrying a caller-chosen result code.
 */
module TbcpayXml {
  import opened Wrappers
  import opened PhpValues
  import opened XmlResponse

  // ---------------------------------------------------------------------------
  // Extra lines
  // ---------------------------------------------------------------------------

  const ExtraOpen := "<extra name=\""
  const ExtraMid := "\">"
  /** The closing tag, then `PHP_EOL` (a line feed). */
  const ExtraClose := "</extra>\n"

  /** One entry as the loop writes it: name and value escaped, never truncated. */
  function ExtraLine(e: Entry): (line: string)
    ensures |line| > 0 && line[0] == '<'
  {
    ExtraOpen + Clean(e.key, 0) + ExtraMid + Clean(Text(e.value), 0) + ExtraClose
  }

  /** `$extra_str` after the loop: one line per entry, in iteration order. */
  function Extras(data: Entries): (extra: string)
    ensures extra == "" <==> data == []
    ensures data != [] ==> extra[0] == '<'
  {
    if data == [] then "" else ExtraLine(data[0]) + Extras(data[1..])
  }

  lemma {:induction false} ExtrasAppend(data: Entries, e: Entry)
    ensures Extras(data + [e]) == Extras(data) + ExtraLine(e)
  {
    if data == [] {
      assert [e][1..] == [];
    } else {
      assert (data + [e])[1..] == data[1..] + [e];
      ExtrasAppend(data[1..], e);
    }
  }

  /** The `foreach` of `getSuccessBody`: appends one line per entry. */
  method BuildExtras(data: Entries) returns (extra: string)
    ensures extra == Extras(data)
  {
    extra := "";
    var i := 0;
    while i < |data|
      invariant 0 <= i <= |data|
      invariant extra == Extras(data[..i])
    {
      ExtrasAppend(data[..i], data[i]);
      assert data[..i + 1] == data[..i] + [data[i]];
      extra := extra + ExtraLine(data[i]);
      i := i + 1;
    }
    assert data[..|data|] == data;
  }

  /** The extras are empty exactly when there is no data, and then never the falsy "0". */
  lemma ExtrasEmpty(data: Entries)
    ensures Empty(Some(Extras(data))) <==> data == []
  {
    if data != [] {
      assert Extras(data)[0] == '<';
    }
  }

  /** Each entry as it appears in the body: the escaped name and the escaped value. */
  function Escaped(data: Entries): (r: seq<(string, string)>)
    ensures |r| == |data|
  {
    if data == [] then [] else [(Escape(data[0].key), Escape(Text(data[0].value)))] + Escaped(data[1..])
  }

  /** The entries as name and value strings, null read as "". */
  function Pairs(data: Entries): (r: seq<(string, string)>)
    ensures |r| == |data|
  {
    if data == [] then [] else [(data[0].key, Text(data[0].value))] + Pairs(data[1..])
  }

  lemma EscapeInjective(x: string, y: string)
    ensures Escape(x) == Escape(y) <==> x == y
  {
    UnescapeEscape(x);
    UnescapeEscape(y);
  }

  /** Escaping loses nothing, so the escaped entries agree exactly when the entries do. */
  lemma {:induction false} EscapedDeterminesPairs(a: Entries, b: Entries)
    ensures Escaped(a) == Escaped(b) <==> Pairs(a) == Pairs(b)
  {
    if a != [] && b != [] {
      EscapedDeterminesPairs(a[1..], b[1..]);
      EscapeInjective(a[0].key, b[0].key);
      EscapeInjective(Text(a[0].value), Text(b[0].value));
      var ea, eb := Escaped(a), Escaped(b);
      var pa, pb := Pairs(a), Pairs(b);
      assert ea == [ea[0]] + Escaped(a[1..]) && eb == [eb[0]] + Escaped(b[1..]);
      assert pa == [pa[0]] + Pairs(a[1..]) && pb == [pb[0]] + Pairs(b[1..]);
      assert ea[0] == eb[0] <==> pa[0] == pb[0];
      ConsEqual(ea[0], Escaped(a[1..]), eb[0], Escaped(b[1..]));
      ConsEqual(pa[0], Pairs(a[1..]), pb[0], Pairs(b[1..]));
    }
  }

  lemma ConsEqual<T>(x: T, xs: seq<T>, y: T, ys: seq<T>)
    ensures [x] + xs == [y] + ys <==> x == y && xs == ys
  {
    if [x] + xs == [y] + ys {
      assert x == ([x] + xs)[0];
      assert xs == ([x] + xs)[1..];
      assert ys == ([y] + ys)[1..];
    }
  }

  /**
   * Reference reader for the extra lines: after the fixed opening, the
   * name runs to the first delimiter, then after `">` the value runs to
   * the next delimiter, then the closing tag is skipped.
   */
  function ReadExtras(s: string): seq<(string, string)>
    decreases |s|
  {
    if |s| < |ExtraOpen| then []
    else
      var r := s[|ExtraOpen|..];
      var k := TextLength(r);
      if k + |ExtraMid| > |r| then []
      else
        var r' := r[k + |ExtraMid|..];
        var v := TextLength(r');
        if v + |ExtraClose| > |r'| then []
        else [(r[..k], r'[..v])] + ReadExtras(r'[v + |ExtraClose|..])
  }

  /** The reader takes one line off the front. */
  lemma ReadOneLine(key: string, val: string, rest: string)
    requires Inert(key) && Inert(val)
    ensures ReadExtras(ExtraOpen + key + ExtraMid + val + ExtraClose + rest) == [(key, val)] + ReadExtras(rest)
  {
    var s := ExtraOpen + key + ExtraMid + val + ExtraClose + rest;
    var r := s[|ExtraOpen|..];
    assert r == key + (ExtraMid + (val + (ExtraClose + rest)));
    TextLengthBeforeTag(key, ExtraMid + (val + (ExtraClose + rest)));
    assert r[..|key|] == key;
    var r' := r[|key| + |ExtraMid|..];
    assert r' == val + (ExtraClose + rest);
    TextLengthBeforeTag(val, ExtraClose + rest);
    assert r'[..|val|] == val;
    assert r'[|val| + |ExtraClose|..] == rest;
  }

  /** Reading the extras back gives every entry, escaped, in order. */
  lemma {:induction false} ReadExtrasRoundTrip(data: Entries)
    ensures ReadExtras(Extras(data)) == Escaped(data)
  {
    if data != [] {
      ReadOneLine(Escape(data[0].key), Escape(Text(data[0].value)), Extras(data[1..]));
      ReadExtrasRoundTrip(data[1..]);
    }
  }

  /** Two data sets give the same extra lines only when their entries agree once escaped. */
  lemma ExtrasDetermine(a: Entries, b: Entries)
    ensures Extras(a) == Extras(b) <==> Escaped(a) == Escaped(b)
  {
    ReadExtrasRoundTrip(a);
    ReadExtrasRoundTrip(b);
    if Escaped(a) == Escaped(b) {
      ExtrasOfEscaped(a, b);
    }
  }

  lemma {:induction false} ExtrasOfEscaped(a: Entries, b: Entries)
    requires Escaped(a) == Escaped(b)
    ensures Extras(a) == Extras(b)
  {
    if a != [] {
      assert Escaped(a)[0] == Escaped(b)[0];
      assert Escaped(a[1..]) == Escaped(a)[1..] && Escaped(b[1..]) == Escaped(b)[1..];
      ExtrasOfEscaped(a[1..], b[1..]);
    }
  }

  // ---------------------------------------------------------------------------
  // Bodies
  // ---------------------------------------------------------------------------

  /** The text every success body starts with, up to the name of the element after `<result>`. */
  const SuccessHead := "<?xml version=\"1.0\" encoding=\"UTF-8\"?>\n<response>\n    <result>0</result>\n    <"

  const InfoOpen := "info>\n        "
  const InfoClose := "\n    </info>\n    <comment>OK</comment>\n</response>"
  const CommentOnly := "comment>OK</comment>\n</response>"

  /** The success body around a non-empty extras string. */
  function InfoBody(extra: string): string
  {
    SuccessHead + InfoOpen + extra + InfoClose
  }

  /** The success body when there are no extras. */
  const PlainSuccessBody := SuccessHead + CommentOnly

  /** `getSuccessBody($data)`: the info variant when `$extra_str` is truthy, the plain one otherwise. */
  function SuccessBody(data: Entries): (body: string)
    ensures SuccessHead <= body
  {
    var extra := Extras(data);
    if !Empty(Some(extra)) then InfoBody(extra) else PlainSuccessBody
  }

  /** With empty data the body is the plain one, and it has no `<info>` element only then. */
  lemma SuccessWithoutInfo(data: Entries)
    ensures SuccessBody(data) == PlainSuccessBody <==> data == []
  {
    ExtrasEmpty(data);
    if data != [] {
      var extra := Extras(data);
      assert InfoBody(extra)[|SuccessHead|] == 'i' by {
        assert InfoBody(extra) == SuccessHead + (InfoOpen + extra + InfoClose);
        assert InfoOpen[0] == 'i';
      }
      assert PlainSuccessBody[|SuccessHead|] == 'c' by {
        assert CommentOnly[0] == 'c';
      }
    }
  }

  /** With non-empty data, the body is the info variant holding exactly the extra lines. */
  lemma SuccessWithInfo(data: Entries)
    requires data != []
    ensures SuccessBody(data) == SuccessHead + InfoOpen + Extras(data) + InfoClose
  {
    ExtrasEmpty(data);
  }

  /** The success body determines every entry of the data, names and values, in order. */
  lemma SuccessBodyDetermines(a: Entries, b: Entries)
    ensures SuccessBody(a) == SuccessBody(b) <==> Pairs(a) == Pairs(b)
  {
    EscapedDeterminesPairs(a, b);
    ExtrasDetermine(a, b);
    SuccessWithoutInfo(a);
    SuccessWithoutInfo(b);
    if SuccessBody(a) == SuccessBody(b) && a != [] && b != [] {
      ExtrasEmpty(a);
      ExtrasEmpty(b);
      var x, y := Extras(a), Extras(b);
      assert SuccessHead + InfoOpen + x + InfoClose == SuccessHead + InfoOpen + y + InfoClose;
      assert |x| == |y|;
      assert (SuccessHead + InfoOpen) + x + InfoClose == (SuccessHead + InfoOpen) + y + InfoClose;
      MiddleDetermined(SuccessHead + InfoOpen, x, y, InfoClose);
    }
    if Escaped(a) == Escaped(b) {
      assert |a| == |b|;
    }
  }

  const ErrorSegments: seq<string> := [
    "<?xml version=\"1.0\" encoding=\"UTF-8\"?>\n<response>\n    <result>",
    Tag("/result>\n    <comment>"),
    Tag("/comment>\n</response>")
  ]

  /** `getErrorBody($code, $desc)`: the code verbatim, the description cleaned and limited to 125. */
  function ErrorBody(code: string, desc: string): (body: string)
    ensures ErrorSegments[0] + code + ErrorSegments[1] <= body
  {
    var vals := [code, Clean(desc, 125)];
    FillStartsWith(ErrorSegments[1..], vals[1..]);
    assert Fill(ErrorSegments, vals) == ErrorSegments[0] + code + Fill(ErrorSegments[1..], vals[1..]);
    Fill(ErrorSegments, [code, Clean(desc, 125)])
  }

  /** For an inert code, the error body determines the code and the cleaned description. */
  lemma {:induction false} ErrorBodyDetermines(c: string, d: string, c': string, d': string)
    requires Inert(c) && Inert(c')
    ensures ErrorBody(c, d) == ErrorBody(c', d') <==> c == c' && Clean(d, 125) == Clean(d', 125)
  {
    if ErrorBody(c, d) == ErrorBody(c', d') {
      assert TagDelimited(ErrorSegments);
      FillDeterminesValues(ErrorSegments, ErrorSegments, [c, Clean(d, 125)], [c', Clean(d', 125)]);
    }
  }

  // ---------------------------------------------------------------------------
  // success / error
  // ---------------------------------------------------------------------------

  /** `success($data)`: the success body, whatever the mode. */
  method Success(r: Response, data: Entries := [])
    modifies r
    ensures r.GetContent() == Some(SuccessBody(data))
  {
    var extra := BuildExtras(data);
    if !Empty(Some(extra)) {
      r.content := Some(InfoBody(extra));
    } else {
      r.content := Some(PlainSuccessBody);
    }
  }

  /** `error($code, $desc)`: the error body, whatever the mode. */
  method Error(r: Response, code: string := "2", desc: string := DefaultErrorDesc)
    modifies r
    ensures r.GetContent() == Some(ErrorBody(code, desc))
  {
    r.content := Some(ErrorBody(code, desc));
  }
}

=== FILE: wrappers.dfy ===
/** The optional-value wrapper used throughout the model for PHP's `null`. */
module Wrappers {

  datatype Option<+T> = None | Some(value: T)
}

=== FILE: xml_response.dfy ===
/**
 * What every provider's XML response shares: HTML escaping with truncation
 * (`clean`), comment stripping (`prepare`), templates with interpolated
 * fields, and the response object holding the mode and the rendered body.
 */
module XmlResponse {
  import opened Wrappers

  /** The description every bank's error reply carries when the caller gives none. */
  const DefaultErrorDesc := "Unable to accept this payment"

  // ---------------------------------------------------------------------------
  // htmlspecialchars
  // ---------------------------------------------------------------------------

  /** The entity `htmlspecialchars` (quote style ENT_COMPAT) writes for one character. */
  function EscapeChar(c: char): string
  {
    if c == '&' then "&amp;"
    else if c == '"' then "&quot;"
    else if c == '<' then "&lt;"
    else if c == '>' then "&gt;"
    else [c]
  }

  /** A character that opens or closes a tag or ends an attribute value. */
  predicate Delimiter(c: char)
  {
    c == '<' || c == '>' || c == '"'
  }

  /** A string in which no character can open or close a tag or end an attribute value. */
  predicate Inert(s: string)
  {
    forall i :: 0 <= i < |s| ==> s[i] != '<' && s[i] != '>' && s[i] != '"'
  }

  /** `htmlspecialchars($s)`: `&`, `"`, `<` and `>` become entities, everything else stays. */
  function Escape(s: string): (r: string)
    ensures Inert(r)
    ensures |r| >= |s|
  {
    if s == [] then [] else EscapeChar(s[0]) + Escape(s[1..])
  }

  /** Reference decoder for the four entities `Escape` writes. */
  function Unescape(t: string): string
  {
    if t == [] then []
    else if |t| >= 5 && t[..5] == "&amp;" then "&" + Unescape(t[5..])
    else if |t| >= 6 && t[..6] == "&quot;" then "\"" + Unescape(t[6..])
    else if |t| >= 4 && t[..4] == "&lt;" then "<" + Unescape(t[4..])
    else if |t| >= 4 && t[..4] == "&gt;" then ">" + Unescape(t[4..])
    else [t[0]] + Unescape(t[1..])
  }

  /** Escaping loses nothing: unescaping its output gives the input back. */
  lemma {:induction false} UnescapeEscape(s: string)
    ensures Unescape(Escape(s)) == s
  {
    if s != [] {
      UnescapeEscape(s[1..]);
      UnescapeChar(s[0], Escape(s[1..]));
      assert Escape(s) == EscapeChar(s[0]) + Escape(s[1..]);
      assert s == [s[0]] + s[1..];
    }
  }

  /** Unescaping reads one escaped character back and goes on with the rest. */
  lemma {:induction false} UnescapeChar(c: char, tail: string)
    ensures Unescape(EscapeChar(c) + tail) == [c] + Unescape(tail)
  {
    var t := EscapeChar(c) + tail;
    if c == '&' {
      assert t[..5] == "&amp;" && t[5..] == tail;
    } else if c == '"' {
      assert t[..5] != "&amp;" by { assert t[1] == 'q'; }
      assert t[..6] == "&quot;" && t[6..] == tail;
    } else if c == '<' {
      assert !(|t| >= 5 && t[..5] == "&amp;") && !(|t| >= 6 && t[..6] == "&quot;") by { assert t[1] == 'l'; }
      assert t[..4] == "&lt;" && t[4..] == tail;
    } else if c == '>' {
      assert !(|t| >= 5 && t[..5] == "&amp;") && !(|t| >= 6 && t[..6] == "&quot;") && t[..4] != "&lt;" by { assert t[1] == 'g'; }
      assert t[..4] == "&gt;" && t[4..] == tail;
    } else {
      assert t[0] == c && t[1..] == tail;
    }
  }

  // ---------------------------------------------------------------------------
  // clean
  // ---------------------------------------------------------------------------

  /**
   * `clean($var, $substr)`: escape first, then keep at most `limit` code points
   * of the escaped text; a limit of 0 (PHP null or 0) means no truncation.
   * Strings are sequences of code points, so a cut never splits a character,
   * but it can cut an entity part-way.
   */
  function Clean(s: string, limit: nat): (r: string)
    ensures r <= Escape(s)
    ensures Inert(r)
    ensures limit > 0 ==> |r| == if |Escape(s)| < limit then |Escape(s)| else limit
    ensures limit == 0 ==> r == Escape(s)
  {
    var e := Escape(s);
    if limit > 0 && limit < |e| then e[..limit] else e
  }

  /** Truncation acts on the escaped text: an ampersand limited to 3 code points is `&am`. */
  lemma CleanCutsEntity()
    ensures Clean("&", 3) == "&am"
  {
    assert Escape("&") == "&amp;";
  }

  /** Text that needs no escaping and fits the limit passes through unchanged. */
  lemma CleanKeepsPlainText(s: string, limit: nat)
    requires forall i :: 0 <= i < |s| ==> s[i] !in "&\"<>"
    requires limit == 0 || |s| <= limit
    ensures Clean(s, limit) == s
  {
    PlainEscape(s);
  }

  lemma {:induction false} PlainEscape(s: string)
    requires forall i :: 0 <= i < |s| ==> s[i] !in "&\"<>"
    ensures Escape(s) == s
  {
    if s != [] {
      PlainEscape(s[1..]);
    }
  }

  // ---------------------------------------------------------------------------
  // prepare
  // ---------------------------------------------------------------------------

  const CommentOpen := "<!--"
  const CommentClose := "-->"

  predicate StartsWith(s: string, p: string)
  {
    |p| <= |s| && s[..|p|] == p
  }

  /**
   * Where the lazy `.*?-->` that follows an opening `<!--` ends: the first `-->`
   * at or after `j`, provided no line break comes before it (`.` does not match one).
   */
  function CloseFrom(s: string, j: nat): (r: Option<nat>)
    ensures r.Some? ==> j <= r.value && r.value + 3 <= |s| && s[r.value..r.value + 3] == CommentClose
    decreases |s| - j
  {
    if j + 3 > |s| then None
    else if s[j..j + 3] == CommentClose then Some(j)
    else if s[j] == '\n' then None
    else CloseFrom(s, j + 1)
  }

  /**
   * `preg_replace('#<!--.*?-->#', '', $s)`: scanning left to right, each
   * leftmost, shortest single-line comment is removed; the search resumes
   * right after the removed span.
   */
  function Prepare(s: string): (r: string)
    ensures |r| <= |s|
    decreases |s|
  {
    if s == [] then []
    else if StartsWith(s, CommentOpen) && CloseFrom(s, 4).Some? then Prepare(s[CloseFrom(s, 4).value + 3..])
    else [s[0]] + Prepare(s[1..])
  }

  /** `sub` is obtained from `s` by deleting characters, the rest kept in order. */
  predicate Subsequence(sub: string, s: string)
    decreases |s|
  {
    sub == [] || (s != [] && ((sub[0] == s[0] && Subsequence(sub[1..], s[1..])) || Subsequence(sub, s[1..])))
  }

  lemma {:induction false} SubsequenceOfSuffix(sub: string, s: string, k: nat)
    requires k <= |s|
    requires Subsequence(sub, s[k..])
    ensures Subsequence(sub, s)
    decreases k
  {
    if k > 0 {
      assert s[1..][k - 1..] == s[k..];
      SubsequenceOfSuffix(sub, s[1..], k - 1);
    }
  }

  /** Comment stripping only deletes: every character left was in the input, in the same order. */
  lemma {:induction false} PrepareKeepsOrder(s: string)
    ensures Subsequence(Prepare(s), s)
    decreases |s|
  {
    if s != [] {
      if StartsWith(s, CommentOpen) && CloseFrom(s, 4).Some? {
        var k := CloseFrom(s, 4).value + 3;
        PrepareKeepsOrder(s[k..]);
        SubsequenceOfSuffix(Prepare(s), s, k);
      } else {
        PrepareKeepsOrder(s[1..]);
        assert Prepare(s)[1..] == Prepare(s[1..]);
      }
    }
  }

  /** `<!--` starts at index `i` of `s`. */
  predicate OpensAt(s: string, i: nat)
  {
    i + 4 <= |s| && s[i..i + 4] == CommentOpen
  }

  /** `-->` starts at index `i` of `s`. */
  predicate ClosesAt(s: string, i: nat)
  {
    i + 3 <= |s| && s[i..i + 3] == CommentClose
  }

  /** Text without any `<!--` is left as it is. */
  lemma {:induction false} PrepareWithoutComments(s: string)
    requires forall i: nat :: !OpensAt(s, i)
    ensures Prepare(s) == s
    decreases |s|
  {
    if s != [] {
      assert !OpensAt(s, 0);
      forall i: nat
        ensures !OpensAt(s[1..], i)
      {
        assert !OpensAt(s, i + 1);
        if i + 4 <= |s[1..]| {
          assert s[1..][i..i + 4] == s[i + 1..i + 5];
        }
      }
      PrepareWithoutComments(s[1..]);
    }
  }

  /** Text in front of the first `<!--` is kept as it is, and the rest is processed alike. */
  lemma PrepareKeepsPlainPrefix(a: string, rest: string)
    requires forall i: nat :: i < |a| ==> !OpensAt(a + rest, i)
    ensures Prepare(a + rest) == a + Prepare(rest)
  {
    var s := a + rest;
    PrepareKeepsUpTo(s, |a|);
    assert s[..|a|] == a && s[|a|..] == rest;
  }

  /** The first `k` characters of `s` are kept when no comment opens among them. */
  lemma {:induction false} PrepareKeepsUpTo(s: string, k: nat)
    requires k <= |s|
    requires forall i: nat :: i < k ==> !OpensAt(s, i)
    ensures Prepare(s) == s[..k] + Prepare(s[k..])
    decreases k
  {
    if k > 0 {
      NoOpenInTail(s, k);
      PrepareKeepsFirst(s);
      PrepareKeepsUpTo(s[1..], k - 1);
      Regroup(s, k, Prepare(s[k..]));
    } else {
      assert s[..k] == [] && s[k..] == s;
    }
  }

  /** Dropping the first character keeps "no comment opens before `k`", one place shorter. */
  lemma NoOpenInTail(s: string, k: nat)
    requires 0 < k <= |s|
    requires forall i: nat :: i < k ==> !OpensAt(s, i)
    ensures !OpensAt(s, 0)
    ensures forall i: nat :: i < k - 1 ==> !OpensAt(s[1..], i)
  {
    forall i: nat | i < k - 1
      ensures !OpensAt(s[1..], i)
    {
      OpensAtTail(s, i);
    }
  }

  /** Sequence bookkeeping for one step of `PrepareKeepsUpTo`. */
  lemma Regroup(s: string, k: nat, y: string)
    requires 0 < k <= |s|
    ensures s[1..][k - 1..] == s[k..]
    ensures [s[0]] + (s[1..][..k - 1] + y) == s[..k] + y
  {
    assert s[..k] == [s[0]] + s[1..][..k - 1];
  }

  /** A first character that does not open a comment is kept. */
  lemma PrepareKeepsFirst(s: string)
    requires s != [] && !OpensAt(s, 0)
    ensures Prepare(s) == [s[0]] + Prepare(s[1..])
  {
    if |CommentOpen| <= |s| {
      assert s[..4] == s[0..4];
    }
  }

  /** No comment opens in the tail where none opens one place further in the whole. */
  lemma OpensAtTail(s: string, i: nat)
    requires s != [] && !OpensAt(s, i + 1)
    ensures !OpensAt(s[1..], i)
  {
    if i + 4 <= |s[1..]| {
      assert s[1..][i..i + 4] == s[i + 1..i + 5];
    }
  }

  /** Some line break lies in `s` at an index in `[j, i)`. */
  predicate LineBreakBetween(s: string, j: nat, i: nat)
  {
    exists k :: j <= k < i && k < |s| && s[k] == '\n'
  }

  /** No `-->` from `j` on is reached before a line break, so the lazy match fails. */
  lemma {:induction false} CloseFromNone(s: string, j: nat)
    requires forall i: nat :: j <= i && ClosesAt(s, i) ==> LineBreakBetween(s, j, i)
    ensures CloseFrom(s, j) == None
    decreases |s| - j
  {
    assert !ClosesAt(s, j);
    if j + 3 <= |s| && s[j] != '\n' {
      forall i: nat | j + 1 <= i && ClosesAt(s, i)
        ensures LineBreakBetween(s, j + 1, i)
      {
        assert LineBreakBetween(s, j, i);
        var k :| j <= k < i && k < |s| && s[k] == '\n';
        assert k != j;
      }
      CloseFromNone(s, j + 1);
    }
  }

  /**
   * An opening `<!--` whose line holds no `-->` does not start a comment:
   * its `<` is kept and the scan goes on from the next character.
   */
  lemma UnclosedOpenerKept(s: string)
    requires OpensAt(s, 0)
    requires forall i: nat :: 4 <= i && ClosesAt(s, i) ==> LineBreakBetween(s, 4, i)
    ensures Prepare(s) == s[..1] + Prepare(s[1..])
  {
    CloseFromNone(s, 4);
  }

  /**
   * A complete single-line comment at the front is removed as one span:
   * the body holds no line break and no `-->` that would end it earlier.
   */
  lemma LeadingCommentRemoved(body: string, rest: string)
    requires forall i :: 0 <= i < |body| ==> body[i] != '\n'
    requires forall i: nat :: i < |body| ==> !ClosesAt(body + CommentClose, i)
    ensures Prepare(CommentOpen + body + CommentClose + rest) == Prepare(rest)
  {
    var s := CommentOpen + body + CommentClose + rest;
    assert s[..4] == CommentOpen;
    CloseAfterBody(s, body, 0);
    assert s[4 + |body| + 3..] == rest;
  }

  lemma {:induction false} CloseAfterBody(s: string, body: string, k: nat)
    requires |s| >= 4 + |body| + 3 && s[..4 + |body| + 3] == CommentOpen + body + CommentClose
    requires k <= |body|
    requires forall i :: 0 <= i < |body| ==> body[i] != '\n'
    requires forall i: nat :: i < |body| ==> !ClosesAt(body + CommentClose, i)
    ensures CloseFrom(s, 4 + k) == Some(4 + |body|)
    decreases |body| - k
  {
    var w := CommentOpen + body + CommentClose;
    assert forall i :: 0 <= i < |w| ==> s[i] == w[i];
    if k == |body| {
      assert s[4 + k..4 + k + 3] == w[4 + k..4 + k + 3] == CommentClose;
    } else {
      assert !ClosesAt(body + CommentClose, k);
      assert s[4 + k..4 + k + 3] == w[4 + k..4 + k + 3] == (body + CommentClose)[k..k + 3];
      assert s[4 + k] == body[k];
      CloseAfterBody(s, body, k + 1);
    }
  }

  // ---------------------------------------------------------------------------
  // Templates
  // ---------------------------------------------------------------------------

  /**
   * A heredoc template: literal segments with one interpolated value between
   * each two of them, `segs[0] + vals[0] + segs[1] + ... + segs[n]`.
   */
  function Fill(segs: seq<string>, vals: seq<string>): string
    requires |segs| == |vals| + 1
  {
    if vals == [] then segs[0] else segs[0] + vals[0] + Fill(segs[1..], vals[1..])
  }

  /** A template segment that opens or closes a tag. */
  function Tag(rest: string): (seg: string)
    ensures |seg| > 0 && Delimiter(seg[0])
  {
    "<" + rest
  }

  /** The character right after a head is the one placed there. */
  lemma CharAt(head: string, c: char, rest: string)
    ensures (head + [c] + rest)[|head|] == c
  {
  }

  /** Two texts of one shape, differing only in a middle part of fixed length, differ there. */
  lemma {:induction false} MiddleDetermined(head: string, a: string, b: string, tail: string)
    requires |a| == |b|
    requires head + a + tail == head + b + tail
    ensures a == b
  {
    assert a == (head + a + tail)[|head|..|head| + |a|];
    assert b == (head + b + tail)[|head|..|head| + |b|];
  }

  /**
   * Every segment after the first starts with a delimiter (a tag or the end
   * of an attribute value), so an interpolated inert value ends where it starts.
   */
  predicate TagDelimited(segs: seq<string>)
  {
    forall i :: 1 <= i < |segs| ==> |segs[i]| > 0 && Delimiter(segs[i][0])
  }

  predicate AllInert(vals: seq<string>)
  {
    forall i :: 0 <= i < |vals| ==> Inert(vals[i])
  }

  /** Length of the text before the first delimiter (all of `s` when there is none). */
  function TextLength(s: string): (n: nat)
    ensures n <= |s|
  {
    if s == [] || Delimiter(s[0]) then 0 else 1 + TextLength(s[1..])
  }

  lemma {:induction false} TextLengthBeforeTag(x: string, l: string)
    requires Inert(x)
    requires |l| > 0 && Delimiter(l[0])
    ensures TextLength(x + l) == |x|
  {
    if x != [] {
      assert (x + l)[0] == x[0] && (x + l)[1..] == x[1..] + l;
      TextLengthBeforeTag(x[1..], l);
    }
  }

  /** An inert text followed by a delimiter can be split off in one way only. */
  lemma SplitAtTag(x: string, y: string, l: string, m: string)
    requires Inert(x) && Inert(y)
    requires |l| > 0 && Delimiter(l[0]) && |m| > 0 && Delimiter(m[0])
    requires x + l == y + m
    ensures x == y && l == m
  {
    TextLengthBeforeTag(x, l);
    TextLengthBeforeTag(y, m);
    assert x == (x + l)[..|x|] && y == (y + m)[..|y|];
    assert l == (x + l)[|x|..] && m == (y + m)[|y|..];
  }

  lemma FillStartsWith(segs: seq<string>, vals: seq<string>)
    requires |segs| == |vals| + 1
    ensures segs[0] <= Fill(segs, vals)
  {
  }

  /** `s` ends with `t`. */
  predicate EndsWith(s: string, t: string)
  {
    |t| <= |s| && s[|s| - |t|..] == t
  }

  /** A filled template ends with its last segment, and so with what that segment's tag opens. */
  lemma {:induction false} FillEndsWith(segs: seq<string>, vals: seq<string>)
    requires |segs| == |vals| + 1
    ensures EndsWith(Fill(segs, vals), segs[|segs| - 1])
    ensures |segs[|segs| - 1]| > 0 ==> EndsWith(Fill(segs, vals), segs[|segs| - 1][1..])
  {
    if vals != [] {
      FillEndsWith(segs[1..], vals[1..]);
      var f, g, last := Fill(segs, vals), Fill(segs[1..], vals[1..]), segs[|segs| - 1];
      assert f == (segs[0] + vals[0]) + g;
      assert f[|f| - |last|..] == g[|g| - |last|..];
      if |last| > 0 {
        assert f[|f| - (|last| - 1)..] == g[|g| - (|last| - 1)..];
      }
    }
  }

  /**
   * A rendered template determines its values: two templates that agree on
   * every segment but the last, filled with inert values, render alike only
   * when the values and the last segments agree.
   */
  lemma {:induction false} FillDeterminesValues(segs: seq<string>, segs': seq<string>, xs: seq<string>, ys: seq<string>)
    requires |segs| == |segs'| == |xs| + 1 == |ys| + 1
    requires TagDelimited(segs) && TagDelimited(segs')
    requires forall i :: 0 <= i < |segs| - 1 ==> segs[i] == segs'[i]
    requires AllInert(xs) && AllInert(ys)
    requires Fill(segs, xs) == Fill(segs', ys)
    ensures xs == ys && segs[|segs| - 1] == segs'[|segs'| - 1]
  {
    if xs != [] {
      var a, b := Fill(segs[1..], xs[1..]), Fill(segs'[1..], ys[1..]);
      assert segs[0] + xs[0] + a == segs[0] + ys[0] + b;
      assert xs[0] + a == ys[0] + b by {
        assert xs[0] + a == (segs[0] + xs[0] + a)[|segs[0]|..];
        assert ys[0] + b == (segs[0] + ys[0] + b)[|segs[0]|..];
      }
      FillStartsWith(segs[1..], xs[1..]);
      FillStartsWith(segs'[1..], ys[1..]);
      assert a[0] == segs[1][0];
      assert b[0] == segs'[1][0];
      SplitAtTag(xs[0], ys[0], a, b);
      FillDeterminesValues(segs[1..], segs'[1..], xs[1..], ys[1..]);
    }
  }

  // ---------------------------------------------------------------------------
  // The response object
  // ---------------------------------------------------------------------------

  class Response {
    /** The bank-specific response mode (`check`, `reg`, ...). */
    const mode: string
    /** The rendered body; None until `success` or `error` assigns it. */
    var content: Option<string>

    constructor (mode: string)
      ensures this.mode == mode && content == None
    {
      this.mode := mode;
      content := None;
    }

    /** `getContent()`: the last body assigned (None while unset). */
    function GetContent(): Option<string>
      reads this
    {
      content
    }
  }
}
